=== FILE: README.md ===
# Social Amnesia: reddit retention engine, modelled in Dafny

Social Amnesia erases a user's old reddit comments and submissions. The user
picks a retention window, a score ceiling and whether gilded items are spared.
Each deletion pass walks one listing (comments or submissions). For every item
it decides whether to skip it, to report it in a test run, or to overwrite it
with `Wiped by Social Amnesia` and delete it. A scheduler polls the clock
every second and, while it stays enabled, runs both passes once a day at a
chosen hour (except when that hour is 0, see "## Findings"). Switching it
off and on again within that hour runs the passes a second time.

The model is purely functional:

- `Items`: the reddit item as the loop reads it. The server's answers to
  `edit` and `delete` are explicit `CallOutcome` values.
- `Snippets`: the display snippet. It also holds the source's character
  stripping loop, proved equal to a filter.
- `Settings`: `reddit_state`, the values written at login, and the setters
  for the retention window, the score ceiling, the gilded checkbox and the
  test-run checkbox. The time and score setters return the new state and
  the label text they set. The two checkbox setters set no label and return
  only the new state.
- `Deletion`: the first-match verdict. `DeleteItems` is the loop, written as
  a fold that returns a trace of `Event`s (`Edit`, `Delete`, `Status`,
  `Progress`) and the error that ended the pass, if any.
- `Scheduler`: one poll is the function `Step` over the `alreadyRan` flag.
  The timer becomes a sequence of polls at given clock hours. `Poll` adds
  the two deletion passes a firing poll starts.
- `Gui`: `build_number_list`, the dropdowns and the error-text table of the
  Tk front end.
- `Decimal`, `Wrappers`: `str()`/`int()` on integers, and `Option`/`Result`.

The code and the design intent differ in several places. In each case the
model follows the code:

- At login the code stores `testRun = 0` and `gildedSkip = 0`, so the first
  pass deletes for real (`LoginDefaultsDeleteForReal`). The checkboxes in
  the window are drawn ticked, but the state is only written when they are
  clicked.
- A `delete()` that raises is not caught, so it ends the pass
  (`FailedDeleteEndsRun`).
- An exception during a scheduled pass stops the polling for good.
- The error dialog looks up the exception's class rather than its message,
  so it never shows a friendly text (see "## Findings").
- The reddit tab rebinds `hours_dropdown` to the scheduler's hour dropdown
  (social_amnesia.py:302). So the "Set Total Time To Keep" button reads its
  hours from that dropdown, and the dropdown created at line 212 is never
  placed in the window. Both offer 0 to 23, so
  `Gui.DropdownTimeToSave` holds either way.
- An empty max-score entry shows "0" on the label but leaves the stored
  ceiling unchanged (`EmptyMaxScoreLabelDisagrees`).
- "Unlimited" stores the number 9999999999, not an unbounded value
  (`UnlimitedCeiling`).
- The progress count comes from a separate, earlier enumeration. If that
  count is 0 while the second listing still yields an item, the
  progress-bar division raises (`DivisionByZero`).

Clock readings are parameters: `now` in seconds and the current hour as a
`Hour`.

## Model

| member | source | states |
|---|---|---|
| `Decimal.ParseIntToString` | services/reddit.py:108-111 | Reading back the text `str()` printed for an integer gives that integer. |
| `Decimal.NatToStringInjective` | social_amnesia.py:27 | Different numbers print as different numerals. |
| `Snippets.Snippet` | services/reddit.py:143-162 | A snippet is at most 15+3 characters for comments and 50+3 for submissions. It never contains a code point above 65535. A text over the limit is cut to the limit, stripped, then given `...`. A text within the limit is only stripped. |
| `Snippets.Strip` | services/reddit.py:148-152 | Stripping never lengthens the text, leaves only renderable characters, and changes the text exactly when it holds an unrenderable one. |
| `Snippets.StripKeepsExactlyRenderable` | services/reddit.py:148-152 | A character survives stripping if and only if it occurs in the text and is renderable. |
| `Snippets.StripByReplacing` | services/reddit.py:148-152 | The source's loop (iterate the original snippet, `replace(char, '')` for each character above 65535) computes exactly the filter `Strip`. |
| `Snippets.ShortRenderableShownVerbatim` | services/reddit.py:145-147 | A short, fully renderable text is shown unchanged, with no ellipsis. |
| `Settings.Login` | services/reddit.py:56-60 | After login the user is set, the cutoff is the login time, the ceiling is 0, and both test mode and gilded skipping are off. |
| `Settings.SetTimeToSave` | services/reddit.py:74-78 | The setter succeeds exactly when all four texts are integers. Otherwise the error names the first refused text in the order hours, days, weeks, years, as the `int()` calls run left to right. On success only the cutoff changes, to now minus 3600·(h + 24d + 168w + 8736y) seconds. |
| `Settings.TimeLabelNothingIffAllZero` | services/reddit.py:80-92 | The label reads `[nothing]` if and only if all four dropdowns are "0". |
| `Settings.ReadTimeLabelOfTimeLabel` | services/reddit.py:80-92 | For inputs without spaces, the label can be read back into the four inputs. The reader takes an empty field as 0 and refuses `0` followed by a unit, so the round trip holds only because a zero input shows no unit and every non-zero one shows its unit. |
| `Settings.UnitTextEmptyIffZero` | services/reddit.py:80-86 | A dropdown's part of the label is empty if and only if the dropdown reads "0". Otherwise it ends in the unit. |
| `Settings.SetMaxScore` | services/reddit.py:103-111 | "" leaves the state untouched and shows 0. "Unlimited" stores 9999999999. Other text stores `int(text)` and shows `str(int(text))` (so `05` shows 5), or fails with that text. Nothing but the ceiling ever changes. |
| `Settings.MaxScoreLabelShowsStored` | services/reddit.py:105-111 | For any non-empty entry that is accepted, the label shows exactly the stored ceiling. |
| `Settings.EmptyMaxScoreLabelDisagrees` | services/reddit.py:103-104 | After an empty entry the label reads 0 while the stored ceiling keeps its old non-zero value. |
| `Settings.SetGildedSkip` | services/reddit.py:116-119 | Skipping is on afterwards if and only if it was on before or the flag is truthy. Only `gildedSkip` changes. |
| `Settings.GildedSkipSticks` | services/reddit.py:116-119 | After any sequence of checkbox clicks, skipping is on if and only if it was on initially or some click was truthy. The setter never switches it off. |
| `Settings.SetTestRun` | services/reddit.py:203-204 | Test mode is on if and only if the stored checkbox value is non-zero. Nothing else changes. |
| `Deletion.Decide` | services/reddit.py:164-190 | The rules apply in first-match order. A creation time after the cutoff gives "too recent" whatever the score or gilding. Next comes a score above the ceiling, then gilded while skipping. An item reaches a delete verdict if and only if it matches the order-free `Matches` policy. That verdict is "would delete" exactly in test mode. |
| `Deletion.DeleteItems` | services/reddit.py:132-139 | Without a login the pass raises the `'user'` key error and does nothing. Otherwise the trace starts with `0/N`. |
| `Deletion.StatusMessageTellsVerdict` | services/reddit.py:166-190 | A status text ends in ", skipping." if and only if the item was kept. It starts with "TEST RUN: " if and only if the verdict is "would delete". |
| `Deletion.RunItemsCompletes` | services/reddit.py:176-198 | The pass reaches the end of the listing if and only if the total is non-zero (or the listing is empty) and, in a real run, no matching item's delete raises. |
| `Deletion.RunItemsTestRunSafe` | services/reddit.py:176-190 | In test mode a pass, finished or not, issues no overwrite or delete. So it cannot stop on a failed delete. |
| `Deletion.RunItemsProgress` | services/reddit.py:192-195 | Every progress text of a pass, finished or not, counts against the total the pass was given. |
| `Deletion.RunItemsPairsEdits` | services/reddit.py:179-187 | In every pass, finished or not, each delete comes right after the overwrite of the same item. The overwritten ids are exactly the deleted ids. |
| `Deletion.CompletedRun` | services/reddit.py:139-198 | A finished pass starts at `0/N`. It shows one verdict per item, in listing order, with progress 1, 2, … up to the number of items. |
| `Deletion.CompletedRunCalls` | services/reddit.py:176-195 | In a finished pass all progress counts against `N`. A real pass overwrites and then deletes exactly the matching items, in order; a test pass deletes nothing. |
| `Deletion.TestRunNeverMutates` | services/reddit.py:176-190 | In test mode no edit or delete is issued, and no delete failure can occur. |
| `Deletion.TestRunReportsMatches` | services/reddit.py:188-190 | A logged-in test pass with a non-zero total finishes. Its verdict for each item is "would delete" exactly when the item matches. |
| `Deletion.FailedDeleteEndsRun` | services/reddit.py:179-187 | A raising delete at item j is the pass's last event. Items before j were reported, and the matching ones among them were deleted. Nothing after j is touched. |
| `Deletion.EditOutcomeIgnored` | services/reddit.py:179-182 | Whatever `edit` answers, the pass is identical: its failure is swallowed. |
| `Deletion.RunWithoutLogin` | services/reddit.py:133-137 | Before login a pass produces nothing and reports `'user'`. |
| `Deletion.LoginDefaultsDeleteForReal` | services/reddit.py:56-60 | Right after login, any item created no later than the login time with score ≤ 0 is deleted for real, gilded or not. |
| `Deletion.TestRunOnlyChangesAction` | services/reddit.py:176 | Toggling test mode never changes which items are kept. |
| `Deletion.UnlimitedCeiling` | services/reddit.py:105-106 | Under "Unlimited", the score rule skips an old-enough item if and only if its score exceeds 9999999999. |
| `Deletion.RetentionScenario` | services/reddit.py:164-187 | Policy: keep 24 h, ceiling 5, skip gilded. Four items get the verdicts too recent, above ceiling, gilded and delete. Only the last item is edited and deleted, and its failing edit does not stop it. |
| `Scheduler.Step` | services/reddit.py:216-237 | Disabled: the flag is cleared and polling stops. A poll fires if and only if the hour is the target and the flag is down. A raising pass stops polling with the flag unchanged. Otherwise the flag is cleared at reset hours and set after a run. |
| `Scheduler.VariantsAgreeAwayFromZero` | services/reddit.py:231-234 | For any target other than 0, the corrected reset rule behaves exactly like the source's. |
| `Scheduler.RunsSeparatedByReset` | services/reddit.py:224-234 | While the scheduler stays enabled and every pass finishes, the clock passes a reset hour between any two runs. This holds for the corrected rule, and for the source's rule with target ≠ 0. Switching the checkbox off and on again is not covered; see `Scheduler.ToggleRefiresSameHour`. |
| `Scheduler.ToggleRefiresSameHour` | services/reddit.py:216-230 | A firing poll, then a click that disables the scheduler, then a click that enables it, all in the target hour: the disable clears the flag, so the second enabled poll runs both passes again. |
| `Scheduler.FiresAfterReset` | services/reddit.py:224-234 | After a reset hour, the next poll at the target hour runs. |
| `Scheduler.OneRunPerTargetHour` | services/reddit.py:224-230 | Enabled with the flag down during the target hour, exactly the first poll runs. This is proved for the corrected reset rule, and for the source's rule only when the target is not 0. |
| `Scheduler.AsWrittenRefiresAllMidnightHour` | services/reddit.py:230-234 | With target 0, the source's rule runs the passes on every poll during hour 0. |
| `Scheduler.AsWrittenRunsTwiceAtMidnight` | services/reddit.py:224-234 | Two consecutive polls at hour 0 both run when the target is 0. |
| `Scheduler.LateTargetsResetAtMidnight` | services/reddit.py:231-234 | For targets 22 and 23, the flag is cleared only at hour 0. |
| `Scheduler.DailyScenario` | services/reddit.py:224-234 | With target 14, polls at 14, 14, 15 and 14 run at the first and last poll only. |
| `Scheduler.Poll` | services/reddit.py:222-237 | A firing poll runs comments, then submissions, and at most these two. It starts submissions only if comments did not raise, so the pass that raises is the last one. The flag and the repoll are `Step` applied to whether that last pass raised. After a firing poll whose passes finished, the flag is up unless the hour is a reset hour. Polling continues if and only if the scheduler is enabled and no pass raised. |
| `Scheduler.ScheduledTestRunNeverMutates` | services/reddit.py:227-228 | A scheduled pass in test mode makes no edit or delete. |
| `Scheduler.ScheduledRunWithoutLoginStops` | services/reddit.py:224-230 | Before login, the firing poll reports `'user'`, keeps the flag down and stops polling. |
| `Gui.NumberList` | social_amnesia.py:21-27 | The list has max(n, 0) entries, and entry i is the numeral of i. |
| `Gui.NumberListReadsBack` | social_amnesia.py:21-27 | A text is in the list if and only if it is the canonical numeral of some number in 0..n-1. |
| `Gui.CreateDropdown` | social_amnesia.py:30-45 | A dropdown is created if and only if the selected position is in range. Its values are `build_number_list(quantity)`. |
| `Gui.DefaultSelectionIsZero` | social_amnesia.py:30-44 | A dropdown created at position 0 shows "0". |
| `Gui.DropdownTimeToSave` | social_amnesia.py:212-215 | Any dropdown choice is accepted. It moves the cutoff back by 0 to 23 + 6·24 + 51·168 + 14·8736 hours, and its label reads back as the choice. |
| `Gui.SchedulerHourFromDropdown` | social_amnesia.py:302-310 | The scheduler's hour dropdown always yields a valid clock `Hour`, in 0..23, which is what `int(hours_dropdown.get())` passes on. |
| `Gui.FriendlyError` | social_amnesia.py:79-87 | The table lookup `errors.get(x, x)`: a known text is replaced by its friendly text, and any other text is shown unchanged. |
| `Gui.FriendlyErrorIdempotent` | social_amnesia.py:79-87 | No friendly text is itself a key, so translating twice changes nothing. |
| `Gui.AsWrittenDialogShowsClass` | social_amnesia.py:64-87 | As written, the dialog shows `<class '…'>` for every exception and never one of the friendly texts. The handler is a bound method installed as `report_callback_exception`, so `args[1]` is the exception's class. |
| `Gui.AsWrittenRunErrorDialogs` | social_amnesia.py:64-87 | As written, a pass before login shows `<class 'KeyError'>`, not "You are not logged into reddit!". Every run error shows its class text. |
| `Gui.RunErrorRaised` | services/reddit.py:132-195 | The exception value of each run error is its `str()` text (`'user'`, the delete's message, `division by zero`). Its class is `KeyError`, the library's class, or `ZeroDivisionError`. |
| `Gui.RunErrorDialogs` | social_amnesia.py:78-87 | Corrected handler (`str(args[2])`, the exception value): a pass before login shows "You are not logged into reddit!". A delete failure shows its own message, and a 401 shows "Failed to login to reddit!". |

## Findings

| source | as written | input that shows it | evidently intended | confidence | as-written member | corrected member |
|---|---|---|---|---|---|---|
| services/reddit.py:224-234 | With `hour_of_day == 0`, the poll that runs the passes sets `alreadyRanBool` and then clears it again in the `current_time == 0` branch. | Target hour 0 with polls at 00:00:00 and 00:00:01: both run the deletions, and so does every poll for the rest of hour 0. | One run per day: at hour 0 the flag is cleared only when the target is not 0. For target 0 the `hour_of_day + 1` rule clears it at 01:00. | medium (not executed) | `Scheduler.AsWrittenRefiresAllMidnightHour` | `Scheduler.RunsSeparatedByReset` |
| social_amnesia.py:64-78 | `handle_callback_error(*args)` is installed as the bound method `report_callback_exception`, which Tk calls with `(exc, val, tb)`. So `str(args[1])` is the exception's class text, which matches no key of the table. | Click "Delete comments" before logging in: `KeyError('user')` escapes and the dialog reads `<class 'KeyError'>`. | Look up the exception value `str(args[2])`, for which the table's keys are written (`'user'`, `received 401 HTTP response`, …). | high (not executed) | `Gui.AsWrittenDialogShowsClass` | `Gui.RunErrorDialogs` |

`Gui.AsWrittenDialog` models the handler as written and `Gui.Dialog` the
corrected one. The run-error dialogs are stated for both.

`Scheduler.Step` and `Scheduler.Poll` take a `Variant`. `AsWritten` is the
source's reset rule and `Corrected` is the fix. The once-a-day lemmas are
proved for `Corrected`, and also for `AsWritten` whenever the target is
not 0.

## Left out

- `root.update()` between items (services/reddit.py:197) is not modelled. It runs pending Tk events in the middle of a pass, and the loop reads `reddit_state` afresh for every item (lines 166-176). So a click on a checkbox or a setter during a pass can change the verdicts of the later items in the same pass. The model evaluates a whole pass against one fixed `RedditState`.
- The Tk window is not modelled: widgets, layout, the progress-bar percentage (a float), and the `messagebox` notice shown before a scheduled run. Label texts appear as `Status`/`Progress` events or as the `display` text a setter returns.
- The `root.after(1000, …)` timer is not modelled. It is replaced by explicit polls at given hours. If the checkbox is switched off and on again within one second, two poll chains can run at once; that interleaving is not modelled.
- praw is not modelled: login, `reddit.user.me()`, the `praw.ini` file, `create_storage_folder`, and the two listing enumerations. A listing is given as a count plus a sequence of items. Errors raised while enumerating are not modelled.
- `arrow` and `datetime` are not modelled. `now` (seconds) and the current hour are inputs. Timestamps are whole seconds.
- `services/twitter.py` and the TypeScript app are not part of this model.
- Settings.SetTimeToSave: the cutoff is `now` minus exactly 3600 seconds per hour. The source calls `arrow.now().replace(hours=-total_hours)` (services/reddit.py:77-78), which assumes an arrow release before 0.14, where `replace` with a plural unit shifts the local wall-clock time; later releases reject it. Across a daylight-saving change the real window is one hour shorter or longer: "keep 1 day" set the day after clocks go forward keeps only 23 hours, so an item 23.5 hours old is deleted by the source but kept by the model.
- Settings.SetTimeToSave: accepts only an optional sign and ASCII digits. Python's `int()` also allows surrounding whitespace, underscores and non-ASCII digits. The dropdowns only offer plain numerals.
- Settings.SetMaxScore: the same restriction applies to the typed entry. The `ValueError` message (`invalid literal for int() …` with the text's `repr`) is not reproduced; the error carries the offending text instead.
- Scheduler.Poll: the `messagebox.showinfo` dialog before the passes is not represented.

=== FILE: decimal.dfy ===
/** Decimal numerals: Python's `str(n)` on integers and the part of `int(s)`
    that the configuration setters rely on. */
module Decimal {
  import opened Wrappers

  predicate IsDigit(c: char) {
    '0' <= c <= '9'
  }

  predicate AllDigits(s: string) {
    forall i :: 0 <= i < |s| ==> IsDigit(s[i])
  }

  function DigitChar(d: nat): (c: char)
    requires d < 10
    ensures IsDigit(c)
    ensures c as int - '0' as int == d
  {
    (d + '0' as int) as char
  }

  function DigitValue(c: char): nat
    requires IsDigit(c)
  {
    c as int - '0' as int
  }

  /** The value of a string of decimal digits, most significant first. */
  function DigitsValue(s: string): nat
    requires AllDigits(s)
  {
    if |s| == 0 then 0 else DigitsValue(s[..|s| - 1]) * 10 + DigitValue(s[|s| - 1])
  }

  /** `str(n)` for a non-negative integer: the canonical numeral, without
      leading zeros. */
  function NatToString(n: nat): (s: string)
    ensures |s| >= 1
    ensures AllDigits(s)
    ensures |s| > 1 ==> s[0] != '0'
  {
    if n < 10 then [DigitChar(n)] else NatToString(n / 10) + [DigitChar(n % 10)]
  }

  /** `str(i)` for any integer. */
  function IntToString(i: int): (s: string)
    ensures |s| >= 1
  {
    if i < 0 then "-" + NatToString(-i) else NatToString(i)
  }

  /** `int(s)`: an optional sign followed by at least one decimal digit;
      anything else is the ValueError case, here `None`. */
  function ParseInt(s: string): (r: Option<int>)
    ensures r.Some? ==> |s| >= 1
    ensures r.Some? && AllDigits(s) ==> r.value >= 0
  {
    if |s| >= 2 && (s[0] == '-' || s[0] == '+') && AllDigits(s[1..]) then
      var magnitude: int := DigitsValue(s[1..]);
      Some(if s[0] == '-' then -magnitude else magnitude)
    else if |s| >= 1 && AllDigits(s) then
      Some(DigitsValue(s))
    else
      None
  }

  lemma {:induction false} DigitsValueOfNatToString(n: nat)
    ensures DigitsValue(NatToString(n)) == n
  {
    var s := NatToString(n);
    if n >= 10 {
      DigitsValueOfNatToString(n / 10);
      assert s[..|s| - 1] == NatToString(n / 10);
    }
  }

  /** Printing a natural number and reading it back gives the number. */
  lemma ParseNatToString(n: nat)
    ensures ParseInt(NatToString(n)) == Some(n)
  {
    DigitsValueOfNatToString(n);
  }

  /** Printing any integer and reading it back gives the integer. */
  lemma ParseIntToString(i: int)
    ensures ParseInt(IntToString(i)) == Some(i)
  {
    if i < 0 {
      assert IntToString(i) == "-" + NatToString(-i);
      ParseNegative(NatToString(-i));
      DigitsValueOfNatToString(-i);
    } else {
      ParseNatToString(i);
    }
  }

  lemma ParseNegative(t: string)
    requires |t| >= 1 && AllDigits(t)
    ensures ParseInt("-" + t) == Some(-(DigitsValue(t) as int))
  {
    var s := "-" + t;
    assert s[0] == '-' && s[1..] == t;
  }

  /** Distinct numbers print as distinct numerals. */
  lemma NatToStringInjective(m: nat, n: nat)
    ensures NatToString(m) == NatToString(n) <==> m == n
  {
    if NatToString(m) == NatToString(n) {
      ParseNatToString(m);
      ParseNatToString(n);
    }
  }
}

=== FILE: deletion.dfy ===
/** The deletion pass of `delete_reddit_items`: a first-match verdict per
    item, the calls and status texts it produces, and the walk over a whole
    listing written as a fold that returns the trace of what happened. */
module Deletion {
  import opened Wrappers
  import opened Decimal
  import opened Items
  import opened Settings
  import opened Snippets

  /** The text every item is overwritten with before it is deleted. */
  const EditOverwrite: string := "Wiped by Social Amnesia"

  /** The branch of the rule chain an item ends up in. */
  datatype Verdict = TooRecent | AboveMaxScore | Gilded | WouldDelete | Deleting

  predicate Retained(v: Verdict) {
    v.TooRecent? || v.AboveMaxScore? || v.Gilded?
  }

  /** Order-free statement of which items the policy removes: old enough,
      not above the score ceiling, and not a gilded item while gilded items
      are being skipped. */
  predicate Matches(st: RedditState, item: Item) {
    && item.createdUtc <= st.timeToSave
    && item.score <= st.maxScore
    && !(item.gilded > 0 && SkipsGilded(st))
  }

  /** The first-match rule chain applied to one item. */
  function Decide(st: RedditState, item: Item): (v: Verdict)
    ensures item.createdUtc > st.timeToSave ==> v == TooRecent
    ensures v == AboveMaxScore <==> item.createdUtc <= st.timeToSave && item.score > st.maxScore
    ensures v == Gilded <==>
      item.createdUtc <= st.timeToSave && item.score <= st.maxScore && item.gilded > 0 && SkipsGilded(st)
    ensures !Retained(v) <==> Matches(st, item)
    ensures v == WouldDelete <==> Matches(st, item) && IsTestRun(st)
    ensures v == Deleting <==> Matches(st, item) && !IsTestRun(st)
  {
    if item.createdUtc > st.timeToSave then TooRecent
    else if item.score > st.maxScore then AboveMaxScore
    else if item.gilded > 0 && SkipsGilded(st) then Gilded
    else if st.testRun == 0 then Deleting
    else WouldDelete
  }

  /** What a run does, in order: calls on the server and texts shown. */
  datatype Event =
    | Started(total: nat)
    | Edit(id: string, body: string)
    | Delete(id: string)
    | Status(verdict: Verdict, kind: Category, snippet: string)
    | Progress(done: nat, total: nat)

  /** The texts written to the two label variables. */
  function Message(e: Event): string
    requires e.Started? || e.Status? || e.Progress?
  {
    match e
    case Started(total) => "0/" + NatToString(total) + " items processed so far"
    case Progress(done, total) => NatToString(done) + "/" + NatToString(total) + " items processed."
    case Status(v, kind, snippet) => StatusText(v, KindName(kind) + " `" + snippet + "`")
  }

  const SkipSuffix: string := ", skipping."
  const TestRunPrefix: string := "TEST RUN: "

  /** The status text for a verdict, around the quoted item. */
  function StatusText(v: Verdict, quoted: string): string {
    match v
    case TooRecent => quoted + " more recent than cutoff" + SkipSuffix
    case AboveMaxScore => quoted + " is higher than max score" + SkipSuffix
    case Gilded => quoted + " is gilded" + SkipSuffix
    case WouldDelete => TestRunPrefix + "Would delete " + quoted
    case Deleting => "Deleting " + quoted
  }

  predicate StartsWith(s: string, prefix: string) {
    |s| >= |prefix| && s[..|prefix|] == prefix
  }

  predicate EndsWith(s: string, suffix: string) {
    |s| >= |suffix| && s[|s| - |suffix|..] == suffix
  }

  /** The status text alone tells the reader whether the item was kept and
      whether the pass was a test run, whatever the snippet contains. */
  lemma StatusMessageTellsVerdict(v: Verdict, kind: Category, snippet: string)
    ensures EndsWith(Message(Status(v, kind, snippet)), SkipSuffix) <==> Retained(v)
    ensures StartsWith(Message(Status(v, kind, snippet)), TestRunPrefix) <==> v == WouldDelete
  {
    var quoted := KindName(kind) + " `" + snippet + "`";
    assert quoted[0] == 'C' || quoted[0] == 'S';
    StatusTextTellsVerdict(v, quoted);
  }

  lemma StatusTextTellsVerdict(v: Verdict, quoted: string)
    requires |quoted| > 0 && (quoted[0] == 'C' || quoted[0] == 'S') && quoted[|quoted| - 1] == '`'
    ensures EndsWith(StatusText(v, quoted), SkipSuffix) <==> Retained(v)
    ensures StartsWith(StatusText(v, quoted), TestRunPrefix) <==> v == WouldDelete
  {
    var m := StatusText(v, quoted);
    if Retained(v) {
      var body := if v.TooRecent? then " more recent than cutoff"
                  else if v.AboveMaxScore? then " is higher than max score" else " is gilded";
      assert m == (quoted + body) + SkipSuffix;
      assert m[|m| - |SkipSuffix|..] == SkipSuffix;
      assert m[0] == quoted[0];
    } else {
      assert m[|m| - 1] == '`';
      if v == WouldDelete {
        assert m == TestRunPrefix + ("Would delete " + quoted);
        assert m[..|TestRunPrefix|] == TestRunPrefix;
      } else {
        assert m[0] == 'D';
      }
    }
  }

  /** Why a run stopped early: the `'user'` key was missing (no login), a
      `delete()` call raised, or the progress bar divided by a zero total. */
  datatype RunError = NotLoggedIn | DeleteRaised(description: string) | DivisionByZero

  /** `str()` of the raised exception value (`KeyError('user')` prints as
      `'user'`). The error dialog is handed the exception's class as well;
      which of the two it shows is decided in the `Gui` module. */
  function Describe(e: RunError): string {
    match e
    case NotLoggedIn => "'user'"
    case DeleteRaised(d) => d
    case DivisionByZero => "division by zero"
  }

  datatype RunResult = RunResult(events: seq<Event>, error: Option<RunError>)

  /** One pass of the loop body for the `count`-th item. The edit is
      attempted and whatever it answers is ignored; a raising `delete()`
      ends the run before the status and progress texts are set. */
  function ItemStep(st: RedditState, c: Category, item: Item, count: nat, total: nat): (r: RunResult)
    ensures r.error.Some? ==> r.error.value.DeleteRaised? || r.error.value.DivisionByZero?
  {
    var v := Decide(st, item);
    var calls := if v == Deleting then [Edit(item.id, EditOverwrite), Delete(item.id)] else [];
    if v == Deleting && item.onDelete.Raises? then
      RunResult(calls, Some(DeleteRaised(item.onDelete.description)))
    else
      RunResult(calls + [Status(v, c, Snippet(c, item.text)), Progress(count, total)],
                if total == 0 then Some(DivisionByZero) else None)
  }

  /** The `for item in item_array` loop from the `count`-th item on. */
  function RunItems(st: RedditState, c: Category, items: seq<Item>, count: nat, total: nat): (r: RunResult)
    decreases |items|
  {
    if |items| == 0 then RunResult([], None)
    else
      var head := ItemStep(st, c, items[0], count, total);
      if head.error.Some? then head
      else
        var rest := RunItems(st, c, items[1..], count + 1, total);
        RunResult(head.events + rest.events, rest.error)
  }

  /** `delete_reddit_items`. `total` is the size of the first enumeration of
      the listing and `items` the second one, which the loop walks. */
  function DeleteItems(st: RedditState, c: Category, total: nat, items: seq<Item>): (r: RunResult)
    ensures st.user.None? <==> r == RunResult([], Some(NotLoggedIn))
    ensures st.user.Some? ==> |r.events| >= 1 && r.events[0] == Started(total)
  {
    if st.user.None? then RunResult([], Some(NotLoggedIn))
    else
      var run := RunItems(st, c, items, 1, total);
      RunResult([Started(total)] + run.events, run.error)
  }

  // ---------------------------------------------------------------------
  // Reading a trace

  function Collect<T>(es: seq<Event>, pick: Event -> Option<T>): seq<T> {
    if |es| == 0 then []
    else (if pick(es[0]).Some? then [pick(es[0]).value] else []) + Collect(es[1..], pick)
  }

  lemma {:induction false} CollectAppend<T>(a: seq<Event>, b: seq<Event>, pick: Event -> Option<T>)
    ensures Collect(a + b, pick) == Collect(a, pick) + Collect(b, pick)
  {
    if |a| == 0 {
      assert a + b == b;
    } else {
      assert (a + b)[0] == a[0];
      assert (a + b)[1..] == a[1..] + b;
      CollectAppend(a[1..], b, pick);
    }
  }

  lemma CollectSingle<T>(e: Event, pick: Event -> Option<T>)
    ensures Collect([e], pick) == if pick(e).Some? then [pick(e).value] else []
  {
    assert [e][1..] == [];
  }

  lemma CollectPair<T>(a: Event, b: Event, pick: Event -> Option<T>)
    ensures Collect([a, b], pick) == Collect([a], pick) + Collect([b], pick)
  {
    CollectAppend([a], [b], pick);
    assert [a] + [b] == [a, b];
  }

  function DeletedId(e: Event): Option<string> {
    if e.Delete? then Some(e.id) else None
  }

  function EditedId(e: Event): Option<string> {
    if e.Edit? then Some(e.id) else None
  }

  function StatusVerdict(e: Event): Option<Verdict> {
    if e.Status? then Some(e.verdict) else None
  }

  function ProgressMark(e: Event): Option<nat> {
    if e.Progress? then Some(e.done) else None
  }

  /** No call that changes the account. */
  predicate NoCalls(es: seq<Event>) {
    forall i :: 0 <= i < |es| ==> !es[i].Edit? && !es[i].Delete?
  }

  /** Every delete is immediately preceded by the overwrite of the same item. */
  predicate EditsBeforeDeletes(es: seq<Event>) {
    forall i :: 0 <= i < |es| && es[i].Delete? ==> i > 0 && es[i - 1] == Edit(es[i].id, EditOverwrite)
  }

  /** All progress texts count against the same total. */
  predicate ProgressAgainst(es: seq<Event>, total: nat) {
    forall i :: 0 <= i < |es| && es[i].Progress? ==> es[i].total == total
  }

  /** The verdict of every item, in listing order. */
  function Verdicts(st: RedditState, items: seq<Item>): (vs: seq<Verdict>)
    ensures |vs| == |items|
  {
    if |items| == 0 then [] else [Decide(st, items[0])] + Verdicts(st, items[1..])
  }

  /** The ids of the items the policy removes, in listing order. */
  function MatchingIds(st: RedditState, items: seq<Item>): seq<string> {
    if |items| == 0 then []
    else (if Matches(st, items[0]) then [items[0].id] else []) + MatchingIds(st, items[1..])
  }

  /** `lo, lo + 1, ..., lo + n - 1`. */
  function Span(lo: nat, n: nat): (s: seq<nat>)
    ensures |s| == n
    ensures forall i :: 0 <= i < n ==> s[i] == lo + i
    decreases n
  {
    if n == 0 then [] else [lo] + Span(lo + 1, n - 1)
  }

  /** The run reaches the end of the listing: the total is not zero (unless
      there is nothing to walk) and, in a real run, no matching item's
      delete raises. */
  predicate Completes(st: RedditState, items: seq<Item>, total: nat) {
    && (|items| == 0 || total > 0)
    && (IsTestRun(st) || forall i :: 0 <= i < |items| && Matches(st, items[i]) ==> items[i].onDelete.Succeeds?)
  }

  // ---------------------------------------------------------------------
  // Properties of one item's step

  /** What the overwrite-then-delete pair contributes to a trace. */
  lemma CallsCollect(id: string)
    ensures var calls := [Edit(id, EditOverwrite), Delete(id)];
      && Collect(calls, DeletedId) == [id] && Collect(calls, EditedId) == [id]
      && Collect(calls, StatusVerdict) == [] && Collect(calls, ProgressMark) == []
  {
    var edit, del := Edit(id, EditOverwrite), Delete(id);
    CollectPair(edit, del, DeletedId);
    CollectPair(edit, del, EditedId);
    CollectPair(edit, del, StatusVerdict);
    CollectPair(edit, del, ProgressMark);
    CollectSingle(edit, DeletedId);
    CollectSingle(del, DeletedId);
    CollectSingle(edit, EditedId);
    CollectSingle(del, EditedId);
    CollectSingle(edit, StatusVerdict);
    CollectSingle(del, StatusVerdict);
    CollectSingle(edit, ProgressMark);
    CollectSingle(del, ProgressMark);
  }

  /** What the status and progress texts contribute to a trace. */
  lemma ShownCollect(v: Verdict, c: Category, snippet: string, count: nat, total: nat)
    ensures var shown := [Status(v, c, snippet), Progress(count, total)];
      && Collect(shown, DeletedId) == [] && Collect(shown, EditedId) == []
      && Collect(shown, StatusVerdict) == [v] && Collect(shown, ProgressMark) == [count]
  {
    var status, progress := Status(v, c, snippet), Progress(count, total);
    CollectPair(status, progress, DeletedId);
    CollectPair(status, progress, EditedId);
    CollectPair(status, progress, StatusVerdict);
    CollectPair(status, progress, ProgressMark);
    CollectSingle(status, DeletedId);
    CollectSingle(progress, DeletedId);
    CollectSingle(status, EditedId);
    CollectSingle(progress, EditedId);
    CollectSingle(status, StatusVerdict);
    CollectSingle(progress, StatusVerdict);
    CollectSingle(status, ProgressMark);
    CollectSingle(progress, ProgressMark);
  }

  /** The calls one item's step makes, and the texts it sets when it does
      not raise. */
  lemma ItemStepShape(st: RedditState, c: Category, item: Item, count: nat, total: nat)
    ensures IsTestRun(st) ==> NoCalls(ItemStep(st, c, item, count, total).events)
    ensures EditsBeforeDeletes(ItemStep(st, c, item, count, total).events)
    ensures ProgressAgainst(ItemStep(st, c, item, count, total).events, total)
    ensures Collect(ItemStep(st, c, item, count, total).events, DeletedId)
            == (if Matches(st, item) && !IsTestRun(st) then [item.id] else [])
    ensures Collect(ItemStep(st, c, item, count, total).events, EditedId)
            == (if Matches(st, item) && !IsTestRun(st) then [item.id] else [])
    ensures ItemStep(st, c, item, count, total).error.None? ==>
      Collect(ItemStep(st, c, item, count, total).events, StatusVerdict) == [Decide(st, item)]
    ensures ItemStep(st, c, item, count, total).error.None? ==>
      Collect(ItemStep(st, c, item, count, total).events, ProgressMark) == [count]
  {
    var v := Decide(st, item);
    var shown := [Status(v, c, Snippet(c, item.text)), Progress(count, total)];
    ShownCollect(v, c, Snippet(c, item.text), count, total);
    if v == Deleting {
      var calls := [Edit(item.id, EditOverwrite), Delete(item.id)];
      CallsCollect(item.id);
      if item.onDelete.Succeeds? {
        CollectAppend(calls, shown, DeletedId);
        CollectAppend(calls, shown, EditedId);
        CollectAppend(calls, shown, StatusVerdict);
        CollectAppend(calls, shown, ProgressMark);
      }
    } else {
      assert ItemStep(st, c, item, count, total).events == shown;
    }
  }

  /** A step that raises from `delete()` has made the two calls and set no
      text. */
  lemma ItemStepFailedDelete(st: RedditState, c: Category, item: Item, count: nat, total: nat, d: string)
    requires ItemStep(st, c, item, count, total).error == Some(DeleteRaised(d))
    ensures Matches(st, item) && !IsTestRun(st) && item.onDelete == Raises(d)
    ensures ItemStep(st, c, item, count, total).events == [Edit(item.id, EditOverwrite), Delete(item.id)]
  {
  }

  // ---------------------------------------------------------------------
  // Properties of a whole run

  /** A run stops early exactly when it does not complete. */
  lemma {:induction false} RunItemsCompletes(st: RedditState, c: Category, items: seq<Item>, count: nat, total: nat)
    ensures RunItems(st, c, items, count, total).error.None? <==> Completes(st, items, total)
    decreases |items|
  {
    if |items| > 0 {
      RunItemsCompletes(st, c, items[1..], count + 1, total);
      if !IsTestRun(st) {
        if forall i :: 0 <= i < |items| && Matches(st, items[i]) ==> items[i].onDelete.Succeeds? {
          assert forall i :: 0 <= i < |items[1..]| && Matches(st, items[1..][i]) ==> items[1..][i].onDelete.Succeeds? by {
            forall i | 0 <= i < |items[1..]| && Matches(st, items[1..][i])
              ensures items[1..][i].onDelete.Succeeds?
            {
              assert items[1..][i] == items[i + 1];
            }
          }
        }
        if forall i :: 0 <= i < |items[1..]| && Matches(st, items[1..][i]) ==> items[1..][i].onDelete.Succeeds? {
          if Matches(st, items[0]) && items[0].onDelete.Succeeds? {
            forall i | 0 <= i < |items| && Matches(st, items[i])
              ensures items[i].onDelete.Succeeds?
            {
              if i > 0 {
                assert items[i] == items[1..][i - 1];
              }
            }
          }
        }
      }
    }
  }

  /** A test run issues no edit or delete, so no delete can raise. */
  lemma {:induction false} RunItemsTestRunSafe(st: RedditState, c: Category, items: seq<Item>, count: nat, total: nat)
    requires IsTestRun(st)
    ensures NoCalls(RunItems(st, c, items, count, total).events)
    ensures !RunItems(st, c, items, count, total).error.Some?
            || !RunItems(st, c, items, count, total).error.value.DeleteRaised?
    decreases |items|
  {
    if |items| > 0 {
      ItemStepShape(st, c, items[0], count, total);
      RunItemsTestRunSafe(st, c, items[1..], count + 1, total);
    }
  }

  /** Progress in every run, finished or stopped early, counts against the
      total it was given. */
  lemma {:induction false} RunItemsProgress(st: RedditState, c: Category, items: seq<Item>, count: nat, total: nat)
    ensures ProgressAgainst(RunItems(st, c, items, count, total).events, total)
    decreases |items|
  {
    if |items| > 0 {
      ItemStepShape(st, c, items[0], count, total);
      RunItemsProgress(st, c, items[1..], count + 1, total);
    }
  }

  /** In every run, finished or stopped early, each delete comes right
      after the overwrite of the same item, and the overwritten ids are the
      deleted ids. */
  lemma {:induction false} RunItemsPairsEdits(st: RedditState, c: Category, items: seq<Item>, count: nat, total: nat)
    ensures EditsBeforeDeletes(RunItems(st, c, items, count, total).events)
    ensures Collect(RunItems(st, c, items, count, total).events, EditedId)
            == Collect(RunItems(st, c, items, count, total).events, DeletedId)
    decreases |items|
  {
    if |items| > 0 {
      var head := ItemStep(st, c, items[0], count, total);
      ItemStepShape(st, c, items[0], count, total);
      if head.error.None? {
        var rest := RunItems(st, c, items[1..], count + 1, total);
        RunItemsPairsEdits(st, c, items[1..], count + 1, total);
        var es := head.events + rest.events;
        CollectAppend(head.events, rest.events, EditedId);
        CollectAppend(head.events, rest.events, DeletedId);
        forall i | 0 <= i < |es| && es[i].Delete?
          ensures i > 0 && es[i - 1] == Edit(es[i].id, EditOverwrite)
        {
          if i >= |head.events| {
            assert es[i] == rest.events[i - |head.events|];
            assert rest.events[i - |head.events| - 1] == Edit(es[i].id, EditOverwrite);
          }
        }
      }
    }
  }

  /** A run that reaches the end reports one verdict and one progress step
      per item, counting up by one; a real run overwrites and deletes
      exactly the matching items, in listing order. */
  lemma {:induction false} RunItemsReport(st: RedditState, c: Category, items: seq<Item>, count: nat, total: nat)
    requires RunItems(st, c, items, count, total).error.None?
    ensures var r := RunItems(st, c, items, count, total);
      && Collect(r.events, StatusVerdict) == Verdicts(st, items)
      && Collect(r.events, ProgressMark) == Span(count, |items|)
      && Collect(r.events, DeletedId) == (if IsTestRun(st) then [] else MatchingIds(st, items))
    decreases |items|
  {
    if |items| > 0 {
      var head := ItemStep(st, c, items[0], count, total);
      var rest := RunItems(st, c, items[1..], count + 1, total);
      ItemStepShape(st, c, items[0], count, total);
      RunItemsReport(st, c, items[1..], count + 1, total);
      CollectAppend(head.events, rest.events, StatusVerdict);
      CollectAppend(head.events, rest.events, ProgressMark);
      CollectAppend(head.events, rest.events, DeletedId);
    }
  }

  /** A raising delete ends the run on that item, at index `j`: every
      earlier item was handled normally, the failed item's delete is the
      last thing that happened, and nothing after it is touched. */
  lemma {:induction false} RunItemsStopsAtFailedDelete(
    st: RedditState, c: Category, items: seq<Item>, count: nat, total: nat, d: string
  ) returns (j: nat)
    requires RunItems(st, c, items, count, total).error == Some(DeleteRaised(d))
    ensures j < |items|
    ensures !IsTestRun(st) && Matches(st, items[j]) && items[j].onDelete == Raises(d)
    ensures Last(RunItems(st, c, items, count, total).events) == Some(Delete(items[j].id))
    ensures Collect(RunItems(st, c, items, count, total).events, StatusVerdict) == Verdicts(st, items[..j])
    ensures Collect(RunItems(st, c, items, count, total).events, ProgressMark) == Span(count, j)
    ensures Collect(RunItems(st, c, items, count, total).events, DeletedId) == MatchingIds(st, items[..j + 1])
    decreases |items|
  {
    var head := ItemStep(st, c, items[0], count, total);
    if head.error.Some? {
      ItemStepFailedDelete(st, c, items[0], count, total, d);
      CallsCollect(items[0].id);
      assert MatchingIds(st, items[..1]) == [items[0].id] by {
        assert items[..1] == [items[0]];
        assert items[..1][1..] == [];
      }
      j := 0;
    } else {
      FailedAfterHead(st, c, items, count, total, d);
      var k := RunItemsStopsAtFailedDelete(st, c, items[1..], count + 1, total, d);
      j := k + 1;
      FailedAfterHeadCollect(st, c, items, count, total, k);
    }
  }

  function Last(es: seq<Event>): Option<Event> {
    if |es| == 0 then None else Some(es[|es| - 1])
  }

  lemma FailedAfterHead(st: RedditState, c: Category, items: seq<Item>, count: nat, total: nat, d: string)
    requires |items| > 0
    requires ItemStep(st, c, items[0], count, total).error.None?
    requires RunItems(st, c, items, count, total).error == Some(DeleteRaised(d))
    ensures RunItems(st, c, items[1..], count + 1, total).error == Some(DeleteRaised(d))
  {
  }

  /** One unfolding of the loop when the first item's step does not raise. */
  lemma RunItemsCons(st: RedditState, c: Category, items: seq<Item>, count: nat, total: nat)
    requires |items| > 0
    requires ItemStep(st, c, items[0], count, total).error.None?
    ensures RunItems(st, c, items, count, total).events
            == ItemStep(st, c, items[0], count, total).events + RunItems(st, c, items[1..], count + 1, total).events
    ensures RunItems(st, c, items, count, total).error == RunItems(st, c, items[1..], count + 1, total).error
  {
  }

  /** Moves the facts about the rest of the listing, which failed at its
      `k`-th item, to the whole listing. */
  lemma FailedAfterHeadCollect(st: RedditState, c: Category, items: seq<Item>, count: nat, total: nat, k: nat)
    requires |items| > 0 && k < |items| - 1 && !IsTestRun(st)
    requires ItemStep(st, c, items[0], count, total).error.None?
    requires var rest := RunItems(st, c, items[1..], count + 1, total);
      && Last(rest.events) == Some(Delete(items[1..][k].id))
      && Collect(rest.events, StatusVerdict) == Verdicts(st, items[1..][..k])
      && Collect(rest.events, ProgressMark) == Span(count + 1, k)
      && Collect(rest.events, DeletedId) == MatchingIds(st, items[1..][..k + 1])
    ensures Last(RunItems(st, c, items, count, total).events) == Some(Delete(items[k + 1].id))
    ensures Collect(RunItems(st, c, items, count, total).events, StatusVerdict) == Verdicts(st, items[..k + 1])
    ensures Collect(RunItems(st, c, items, count, total).events, ProgressMark) == Span(count, k + 1)
    ensures Collect(RunItems(st, c, items, count, total).events, DeletedId) == MatchingIds(st, items[..k + 2])
  {
    RunItemsCons(st, c, items, count, total);
    ItemStepShape(st, c, items[0], count, total);
    JoinFailedRest(st, items, k, count, ItemStep(st, c, items[0], count, total).events,
                   RunItems(st, c, items[1..], count + 1, total).events);
  }

  lemma JoinFailedRest(st: RedditState, items: seq<Item>, k: nat, count: nat, head: seq<Event>, rest: seq<Event>)
    requires |items| > 0 && k < |items| - 1
    requires Collect(head, StatusVerdict) == [Decide(st, items[0])]
    requires Collect(head, ProgressMark) == [count]
    requires Collect(head, DeletedId) == (if Matches(st, items[0]) && !IsTestRun(st) then [items[0].id] else [])
    requires !IsTestRun(st)
    requires Last(rest) == Some(Delete(items[1..][k].id))
    requires Collect(rest, StatusVerdict) == Verdicts(st, items[1..][..k])
    requires Collect(rest, ProgressMark) == Span(count + 1, k)
    requires Collect(rest, DeletedId) == MatchingIds(st, items[1..][..k + 1])
    ensures Last(head + rest) == Some(Delete(items[k + 1].id))
    ensures Collect(head + rest, StatusVerdict) == Verdicts(st, items[..k + 1])
    ensures Collect(head + rest, ProgressMark) == Span(count, k + 1)
    ensures Collect(head + rest, DeletedId) == MatchingIds(st, items[..k + 2])
  {
    assert Last(head + rest) == Last(rest);
    CollectAppend(head, rest, StatusVerdict);
    CollectAppend(head, rest, ProgressMark);
    CollectAppend(head, rest, DeletedId);
    JoinVerdicts(st, items, k);
    JoinMatching(st, items, k + 1);
  }

  lemma SliceShift<T>(s: seq<T>, k: nat)
    requires k < |s|
    ensures s[..k + 1][1..] == s[1..][..k]
    ensures s[..k + 1][0] == s[0]
  {
  }

  lemma JoinVerdicts(st: RedditState, items: seq<Item>, k: nat)
    requires k < |items|
    ensures Verdicts(st, items[..k + 1]) == [Decide(st, items[0])] + Verdicts(st, items[1..][..k])
  {
    SliceShift(items, k);
  }

  lemma JoinMatching(st: RedditState, items: seq<Item>, k: nat)
    requires k < |items|
    ensures MatchingIds(st, items[..k + 1])
            == (if Matches(st, items[0]) then [items[0].id] else []) + MatchingIds(st, items[1..][..k])
  {
    SliceShift(items, k);
  }

  /** The opening `0/N` text adds nothing to what a trace reader collects. */
  lemma CollectAfterStarted<T>(total: nat, es: seq<Event>, pick: Event -> Option<T>)
    requires pick(Started(total)).None?
    ensures Collect([Started(total)] + es, pick) == Collect(es, pick)
  {
    CollectAppend([Started(total)], es, pick);
    CollectSingle(Started(total), pick);
  }

  /** Whatever `edit` answers, the run is the same: its failure is swallowed. */
  lemma {:induction false} EditOutcomeIgnored(st: RedditState, c: Category, items: seq<Item>, alt: seq<Item>, count: nat, total: nat)
    requires |alt| == |items|
    requires forall i :: 0 <= i < |items| ==> alt[i] == items[i].(onEdit := alt[i].onEdit)
    ensures RunItems(st, c, alt, count, total) == RunItems(st, c, items, count, total)
    decreases |items|
  {
    if |items| > 0 {
      assert alt[0] == items[0].(onEdit := alt[0].onEdit);
      EditOutcomeIgnored(st, c, items[1..], alt[1..], count + 1, total);
    }
  }

  // ---------------------------------------------------------------------
  // The public entry point

  /** A test run never edits or deletes anything and cannot stop on a
      failed delete. */
  lemma TestRunNeverMutates(st: RedditState, c: Category, total: nat, items: seq<Item>)
    requires IsTestRun(st)
    ensures NoCalls(DeleteItems(st, c, total, items).events)
    ensures forall d :: DeleteItems(st, c, total, items).error != Some(DeleteRaised(d))
  {
    RunItemsTestRunSafe(st, c, items, 1, total);
  }

  /** A logged-in run with a non-zero total in test mode always finishes,
      and reports "would delete" exactly for the matching items. */
  lemma TestRunReportsMatches(st: RedditState, c: Category, total: nat, items: seq<Item>)
    requires st.user.Some? && IsTestRun(st) && total > 0
    ensures DeleteItems(st, c, total, items).error.None?
    ensures Collect(DeleteItems(st, c, total, items).events, StatusVerdict) == Verdicts(st, items)
    ensures forall i :: 0 <= i < |items| ==>
      (Verdicts(st, items)[i] == WouldDelete <==> Matches(st, items[i]))
  {
    var run := RunItems(st, c, items, 1, total);
    RunItemsCompletes(st, c, items, 1, total);
    RunItemsReport(st, c, items, 1, total);
    CollectAfterStarted(total, run.events, StatusVerdict);
    VerdictsAt(st, items);
  }

  lemma {:induction false} VerdictsAt(st: RedditState, items: seq<Item>)
    ensures forall i :: 0 <= i < |items| ==> Verdicts(st, items)[i] == Decide(st, items[i])
  {
    if |items| > 0 {
      VerdictsAt(st, items[1..]);
    }
  }

  /** A run that reaches the end of the listing starts at `0/N`, then shows
      exactly one verdict and one progress text per item, in listing order,
      with counts 1, 2, .... */
  lemma CompletedRun(st: RedditState, c: Category, total: nat, items: seq<Item>)
    requires st.user.Some?
    requires Completes(st, items, total)
    ensures DeleteItems(st, c, total, items).error.None?
    ensures DeleteItems(st, c, total, items).events[0] == Started(total)
    ensures Collect(DeleteItems(st, c, total, items).events, StatusVerdict) == Verdicts(st, items)
    ensures Collect(DeleteItems(st, c, total, items).events, ProgressMark) == Span(1, |items|)
  {
    var run := RunItems(st, c, items, 1, total);
    assert DeleteItems(st, c, total, items) == RunResult([Started(total)] + run.events, run.error);
    RunItemsCompletes(st, c, items, 1, total);
    RunItemsReport(st, c, items, 1, total);
    CollectAfterStarted(total, run.events, StatusVerdict);
    CollectAfterStarted(total, run.events, ProgressMark);
  }

  /** In a run that reaches the end of the listing, all progress counts
      against `N`, every delete is preceded by the overwrite of the same
      item, and a real run deletes exactly the matching ids, each once per
      listing occurrence, in order. */
  lemma CompletedRunCalls(st: RedditState, c: Category, total: nat, items: seq<Item>)
    requires st.user.Some?
    requires Completes(st, items, total)
    ensures ProgressAgainst(DeleteItems(st, c, total, items).events, total)
    ensures EditsBeforeDeletes(DeleteItems(st, c, total, items).events)
    ensures Collect(DeleteItems(st, c, total, items).events, DeletedId)
            == (if IsTestRun(st) then [] else MatchingIds(st, items))
    ensures Collect(DeleteItems(st, c, total, items).events, EditedId)
            == Collect(DeleteItems(st, c, total, items).events, DeletedId)
  {
    var run := RunItems(st, c, items, 1, total);
    assert DeleteItems(st, c, total, items) == RunResult([Started(total)] + run.events, run.error);
    RunItemsCompletes(st, c, items, 1, total);
    RunItemsReport(st, c, items, 1, total);
    RunItemsProgress(st, c, items, 1, total);
    RunItemsPairsEdits(st, c, items, 1, total);
    CollectAfterStarted(total, run.events, DeletedId);
    CollectAfterStarted(total, run.events, EditedId);
    StartedKeepsShape(total, run.events);
  }

  /** The opening `0/N` text keeps the trace well-formed. */
  lemma StartedKeepsShape(total: nat, es: seq<Event>)
    requires ProgressAgainst(es, total) && EditsBeforeDeletes(es)
    ensures ProgressAgainst([Started(total)] + es, total)
    ensures EditsBeforeDeletes([Started(total)] + es)
  {
    var all := [Started(total)] + es;
    forall i | 0 <= i < |all| && all[i].Delete?
      ensures i > 0 && all[i - 1] == Edit(all[i].id, EditOverwrite)
    {
      assert all[i] == es[i - 1];
    }
    forall i | 0 <= i < |all| && all[i].Progress?
      ensures all[i].total == total
    {
      assert all[i] == es[i - 1];
    }
  }

  /** A raising delete ends the whole pass at the `j`-th item: the earlier
      items were reported normally, the matching ones among them and the
      failed one were deleted, the failed delete is the last thing that
      happened, and no later item is looked at. */
  lemma FailedDeleteEndsRun(st: RedditState, c: Category, total: nat, items: seq<Item>, d: string) returns (j: nat)
    requires DeleteItems(st, c, total, items).error == Some(DeleteRaised(d))
    ensures j < |items|
    ensures !IsTestRun(st) && Matches(st, items[j]) && items[j].onDelete == Raises(d)
    ensures Last(DeleteItems(st, c, total, items).events) == Some(Delete(items[j].id))
    ensures Collect(DeleteItems(st, c, total, items).events, StatusVerdict) == Verdicts(st, items[..j])
    ensures Collect(DeleteItems(st, c, total, items).events, ProgressMark) == Span(1, j)
    ensures Collect(DeleteItems(st, c, total, items).events, DeletedId) == MatchingIds(st, items[..j + 1])
  {
    var run := RunItems(st, c, items, 1, total);
    j := RunItemsStopsAtFailedDelete(st, c, items, 1, total, d);
    assert DeleteItems(st, c, total, items).events == [Started(total)] + run.events;
    CollectAfterStarted(total, run.events, StatusVerdict);
    CollectAfterStarted(total, run.events, ProgressMark);
    CollectAfterStarted(total, run.events, DeletedId);
    assert Last([Started(total)] + run.events) == Last(run.events);
  }

  /** The worked example of the retention rules: a policy keeping the last
      24 hours, a ceiling of 5 and gilded items skipped, against four items
      two days or one hour old. Only the old, low-score, ungilded item is
      overwritten and deleted, once. */
  lemma RetentionScenario(now: int)
    ensures var st := RedditState(Some("someone"), now - 24 * SecondsPerHour, 5, 0, 1);
      var a := Item("a", "new", now - SecondsPerHour, 0, 0, Succeeds, Succeeds);
      var b := Item("b", "popular", now - 48 * SecondsPerHour, 10, 0, Succeeds, Succeeds);
      var g := Item("c", "gilded", now - 48 * SecondsPerHour, 2, 1, Succeeds, Succeeds);
      var d := Item("d", "plain", now - 48 * SecondsPerHour, 2, 0, Raises("cannot edit a link"), Succeeds);
      var r := DeleteItems(st, Comment, 4, [a, b, g, d]);
      && Verdicts(st, [a, b, g, d]) == [TooRecent, AboveMaxScore, Gilded, Deleting]
      && r.error.None?
      && Collect(r.events, DeletedId) == ["d"]
      && Collect(r.events, EditedId) == ["d"]
  {
    var st := RedditState(Some("someone"), now - 24 * SecondsPerHour, 5, 0, 1);
    var a := Item("a", "new", now - SecondsPerHour, 0, 0, Succeeds, Succeeds);
    var b := Item("b", "popular", now - 48 * SecondsPerHour, 10, 0, Succeeds, Succeeds);
    var g := Item("c", "gilded", now - 48 * SecondsPerHour, 2, 1, Succeeds, Succeeds);
    var d := Item("d", "plain", now - 48 * SecondsPerHour, 2, 0, Raises("cannot edit a link"), Succeeds);
    var items := [a, b, g, d];
    assert items[1..] == [b, g, d] && items[2..] == [g, d] && items[3..] == [d];
    assert [b, g, d][1..] == [g, d] && [g, d][1..] == [d] && [d][1..] == [];
    assert Decide(st, a) == TooRecent && Decide(st, b) == AboveMaxScore;
    assert Decide(st, g) == Gilded && Decide(st, d) == Deleting;
    assert Verdicts(st, [d]) == [Deleting];
    assert Verdicts(st, [g, d]) == [Gilded, Deleting];
    assert Verdicts(st, [b, g, d]) == [AboveMaxScore, Gilded, Deleting];
    assert MatchingIds(st, [d]) == ["d"];
    assert MatchingIds(st, [g, d]) == ["d"];
    assert MatchingIds(st, [b, g, d]) == ["d"];
    CompletedRun(st, Comment, 4, items);
    CompletedRunCalls(st, Comment, 4, items);
  }

  /** Without a login the run does nothing and raises the missing-key error. */
  lemma RunWithoutLogin(c: Category, total: nat, items: seq<Item>)
    ensures DeleteItems(NoSession, c, total, items) == RunResult([], Some(NotLoggedIn))
    ensures Describe(DeleteItems(NoSession, c, total, items).error.value) == "'user'"
  {
  }

  // ---------------------------------------------------------------------
  // Policy facts

  /** Right after login the policy deletes for real: every item created no
      later than the login time with a score of at most zero is deleted,
      gilded or not. */
  lemma LoginDefaultsDeleteForReal(username: string, now: int, item: Item)
    requires item.createdUtc <= now && item.score <= 0
    ensures Decide(Login(username, now), item) == Deleting
  {
  }

  /** Toggling test mode changes what is done with a matching item, never
      which items match. */
  lemma TestRunOnlyChangesAction(st: RedditState, flag: int, item: Item)
    ensures Retained(Decide(SetTestRun(st, flag), item)) == Retained(Decide(st, item))
    ensures Retained(Decide(st, item)) ==> Decide(SetTestRun(st, flag), item) == Decide(st, item)
  {
  }

  /** With the "Unlimited" ceiling, the score rule skips only items scoring
      above 9999999999. */
  lemma UnlimitedCeiling(st: RedditState, item: Item)
    requires item.createdUtc <= st.timeToSave
    ensures var unlimited := SetMaxScore(st, "Unlimited").value.state;
      Decide(unlimited, item) == AboveMaxScore <==> item.score > 9999999999
  {
  }
}

=== FILE: gui.dfy ===
/** The pure helpers of the Tk front end (`social_amnesia.py`): the numeral
    lists behind every dropdown, the dropdowns of the reddit tab, and the
    translation of raised errors into friendly dialog texts. */
module Gui {
  import opened Wrappers
  import opened Decimal
  import opened Settings
  import opened Deletion
  import opened Scheduler

  /** `build_number_list`: the numerals "0" up to `n - 1` (none when `n` is
      not positive, as with Python's `range`). */
  function NumberList(n: int): (r: seq<string>)
    ensures |r| == if n > 0 then n else 0
    ensures forall i :: 0 <= i < |r| ==> r[i] == NatToString(i)
  {
    seq(if n > 0 then n else 0, i requires 0 <= i => NatToString(i))
  }

  /** Every entry reads back as its own position, so the list holds exactly
      the numbers 0 to n - 1, each once. */
  lemma NumberListReadsBack(n: int, s: string)
    ensures s in NumberList(n) <==> ParseInt(s).Some? && 0 <= ParseInt(s).value < n && s == NatToString(ParseInt(s).value)
  {
    var r := NumberList(n);
    if s in r {
      var i :| 0 <= i < |r| && r[i] == s;
      ParseNatToString(i);
    }
    if ParseInt(s).Some? && 0 <= ParseInt(s).value < n && s == NatToString(ParseInt(s).value) {
      assert r[ParseInt(s).value] == s;
    }
  }

  /** A readonly combobox: its values and the selected position. */
  datatype Dropdown = Dropdown(values: seq<string>, current: nat)

  /** `create_dropdown`: the values come from `build_number_list`; selecting
      a position outside the list is the Tk error case. */
  function CreateDropdown(quantity: int, current: int): (r: Option<Dropdown>)
    ensures r.Some? <==> 0 <= current < quantity
    ensures r.Some? ==> r.value.values == NumberList(quantity) && r.value.current == current
    ensures r.Some? ==> r.value.current < |r.value.values|
  {
    if 0 <= current < quantity then Some(Dropdown(NumberList(quantity), current)) else None
  }

  function Selected(d: Dropdown): string
    requires d.current < |d.values|
  {
    d.values[d.current]
  }

  /** Every dropdown of the reddit tab is created at position 0 and
      initially shows "0". */
  lemma DefaultSelectionIsZero(quantity: int)
    requires quantity > 0
    ensures CreateDropdown(quantity, 0).Some?
    ensures Selected(CreateDropdown(quantity, 0).value) == "0"
  {
  }

  const HourChoices: int := 24
  const DayChoices: int := 7
  const WeekChoices: int := 52
  const YearChoices: int := 15

  /** The largest offset the four dropdowns can select, in hours. */
  const MaxOffsetHours: int := 23 + 6 * HoursPerDay + 51 * HoursPerWeek + 14 * HoursPerYear

  lemma DigitsHaveNoSpace(s: string)
    requires AllDigits(s)
    ensures ' ' !in s
  {
  }

  /** Any choice from the time dropdowns is accepted, moves the cutoff back
      by between 0 and `MaxOffsetHours` hours, and its label can be read
      back into the choice. */
  lemma DropdownTimeToSave(st: RedditState, t: TimeInputs, now: int)
    requires t.hours in NumberList(HourChoices)
    requires t.days in NumberList(DayChoices)
    requires t.weeks in NumberList(WeekChoices)
    requires t.years in NumberList(YearChoices)
    ensures SetTimeToSave(st, t, now).Ok?
    ensures now - MaxOffsetHours * SecondsPerHour <= SetTimeToSave(st, t, now).value.state.timeToSave <= now
    ensures ReadTimeLabel(SetTimeToSave(st, t, now).value.display) == Some(t)
  {
    DropdownTextsParse(t);
    ReadTimeLabelOfTimeLabel(t);
    OffsetWithinDropdowns(ParseInt(t.hours).value, ParseInt(t.days).value,
                          ParseInt(t.weeks).value, ParseInt(t.years).value);
  }

  /** Texts picked from the four dropdowns parse within range and hold no space. */
  lemma DropdownTextsParse(t: TimeInputs)
    requires t.hours in NumberList(HourChoices)
    requires t.days in NumberList(DayChoices)
    requires t.weeks in NumberList(WeekChoices)
    requires t.years in NumberList(YearChoices)
    ensures ParseInt(t.hours).Some? && 0 <= ParseInt(t.hours).value < HourChoices
    ensures ParseInt(t.days).Some? && 0 <= ParseInt(t.days).value < DayChoices
    ensures ParseInt(t.weeks).Some? && 0 <= ParseInt(t.weeks).value < WeekChoices
    ensures ParseInt(t.years).Some? && 0 <= ParseInt(t.years).value < YearChoices
    ensures ' ' !in t.hours && ' ' !in t.days && ' ' !in t.weeks && ' ' !in t.years
  {
    DropdownChoice(HourChoices, t.hours);
    DropdownChoice(DayChoices, t.days);
    DropdownChoice(WeekChoices, t.weeks);
    DropdownChoice(YearChoices, t.years);
  }

  /** A text picked from a numeral dropdown parses within range and holds no space. */
  lemma DropdownChoice(n: int, s: string)
    requires s in NumberList(n)
    ensures ParseInt(s).Some? && 0 <= ParseInt(s).value < n
    ensures ' ' !in s
  {
    NumberListReadsBack(n, s);
    DigitsHaveNoSpace(s);
  }

  /** The largest selection adds up to `MaxOffsetHours`, the smallest to none. */
  lemma OffsetWithinDropdowns(h: int, d: int, w: int, y: int)
    requires 0 <= h < HourChoices && 0 <= d < DayChoices && 0 <= w < WeekChoices && 0 <= y < YearChoices
    ensures 0 <= SecondsPerHour * TotalHours(h, d, w, y) <= SecondsPerHour * MaxOffsetHours
  {
  }

  /** The scheduler's hour dropdown always yields a valid clock hour. */
  lemma SchedulerHourFromDropdown(s: string) returns (h: Hour)
    requires s in NumberList(HourChoices)
    ensures ParseInt(s).Some? && 0 <= ParseInt(s).value < 24
    ensures ParseInt(s) == Some(h as int)
  {
    NumberListReadsBack(HourChoices, s);
    h := ParseInt(s).value;
  }

  /** The known error descriptions and what the dialog says instead. */
  const CallbackErrors: map<string, string> := map[
    "received 401 HTTP response" := "Failed to login to reddit!",
    "'user'" := "You are not logged into reddit!",
    "[{'code': 215, 'message': 'Bad Authentication data.'}]" := "Failed to login to twitter!",
    "list index out of range" := "No tweets or favorites found!",
    "'api'" := "You are not logged in to twitter!"
  ]

  /** `handle_callback_error`: a known description is replaced by its
      friendly text, anything else is shown as it is. */
  function FriendlyError(raw: string): (shown: string)
    ensures raw in CallbackErrors ==> shown == CallbackErrors[raw]
    ensures raw !in CallbackErrors ==> shown == raw
  {
    if raw in CallbackErrors then CallbackErrors[raw] else raw
  }

  /** No friendly text is itself a known description, so translating twice
      changes nothing, and a shown text never repeats a known description. */
  lemma FriendlyErrorIdempotent(raw: string)
    ensures FriendlyError(FriendlyError(raw)) == FriendlyError(raw)
    ensures FriendlyError(raw) !in CallbackErrors
  {
  }

  /** Tk reports an exception escaping a callback by calling
      `report_callback_exception(exc, val, tb)`: the exception's class, its
      value and the traceback. Only the first two matter for the dialog. */
  datatype Raised = Raised(className: string, value: string)

  /** `str()` of an exception class, as Python prints it. */
  function ClassText(className: string): string {
    "<class '" + className + "'>"
  }

  /** The exception each way a deletion run stops raises. The class a raising
      `delete()` throws comes from the reddit library and is a parameter. */
  function RunErrorRaised(e: RunError, deleteClass: string): (r: Raised)
    ensures r.value == Describe(e)
    ensures e.NotLoggedIn? ==> r.className == "KeyError"
    ensures e.DeleteRaised? ==> r.className == deleteClass
    ensures e.DivisionByZero? ==> r.className == "ZeroDivisionError"
  {
    match e
    case NotLoggedIn => Raised("KeyError", Describe(e))
    case DeleteRaised(_) => Raised(deleteClass, Describe(e))
    case DivisionByZero => Raised("ZeroDivisionError", Describe(e))
  }

  /** `handle_callback_error` as written: it is installed as a bound method,
      so `args` is `(self, exc, val, tb)` and `str(args[1])` is the class. */
  function AsWrittenDialog(r: Raised): string {
    FriendlyError(ClassText(r.className))
  }

  /** `handle_callback_error` reading the exception value, `str(args[2])`,
      which the table's keys are written for. */
  function Dialog(r: Raised): string {
    FriendlyError(r.value)
  }

  /** As written, the table never applies: every dialog shows the raw class
      text, never a friendly text. */
  lemma AsWrittenDialogShowsClass(r: Raised)
    ensures AsWrittenDialog(r) == ClassText(r.className)
    ensures forall k :: k in CallbackErrors ==> AsWrittenDialog(r) != CallbackErrors[k]
  {
    var t := ClassText(r.className);
    assert t[|t| - 1] == '>';
    forall k | k in CallbackErrors
      ensures k != t && CallbackErrors[k] != t
    {
      var f := CallbackErrors[k];
      assert k[|k| - 1] != '>' && f[|f| - 1] == '!' by {
        if k == "received 401 HTTP response" {
        } else if k == "'user'" {
        } else if k == "[{'code': 215, 'message': 'Bad Authentication data.'}]" {
        } else if k == "list index out of range" {
        } else {
          assert k == "'api'";
        }
      }
    }
  }

  /** A deletion run before login, as written: the dialog reads
      `<class 'KeyError'>` instead of the friendly text for `'user'`. */
  lemma AsWrittenRunErrorDialogs(e: RunError, deleteClass: string)
    ensures AsWrittenDialog(RunErrorRaised(e, deleteClass)) == ClassText(RunErrorRaised(e, deleteClass).className)
    ensures AsWrittenDialog(RunErrorRaised(NotLoggedIn, deleteClass)) == "<class 'KeyError'>"
    ensures AsWrittenDialog(RunErrorRaised(NotLoggedIn, deleteClass)) != "You are not logged into reddit!"
  {
    AsWrittenDialogShowsClass(RunErrorRaised(e, deleteClass));
    AsWrittenDialogShowsClass(RunErrorRaised(NotLoggedIn, deleteClass));
  }

  /** What the dialog says for each way a deletion run stops, once it reads
      the exception value. */
  lemma RunErrorDialogs(d: string, deleteClass: string)
    requires d !in CallbackErrors
    ensures Dialog(RunErrorRaised(NotLoggedIn, deleteClass)) == "You are not logged into reddit!"
    ensures Dialog(RunErrorRaised(DeleteRaised(d), deleteClass)) == d
    ensures Dialog(RunErrorRaised(DivisionByZero, deleteClass)) == "division by zero"
    ensures Dialog(Raised(deleteClass, "received 401 HTTP response")) == "Failed to login to reddit!"
  {
  }
}

=== FILE: items.dfy ===
/** The reddit content items the deletion loop walks over, reduced to the
    attributes `services/reddit.py` reads from praw's Comment and Submission
    objects. */
module Items {

  /** Which listing a run walks: `comment_bool` true or false. */
  datatype Category = Comment | Submission

  /** How the server answers a mutating call on one item: praw either
      returns or raises an exception carrying a description. */
  datatype CallOutcome = Succeeds | Raises(description: string)

  /** One item. `text` is the comment body or the submission title;
      `gilded` is praw's gilding count (truthy when positive); `onEdit` and
      `onDelete` are the server's answers to `edit` and `delete`. */
  datatype Item = Item(
    id: string,
    text: string,
    createdUtc: int,
    score: int,
    gilded: nat,
    onEdit: CallOutcome,
    onDelete: CallOutcome)

  /** The word used for the item in status messages (`item_string`). */
  function KindName(c: Category): string {
    match c
    case Comment => "Comment"
    case Submission => "Submission"
  }
}

=== FILE: scheduler.dfy ===
/** The daily scheduler of `set_reddit_scheduler`: a poll that runs every
    second, fires both deletion passes when the clock reaches the chosen
    hour, and uses one flag to avoid firing twice. The timer is replaced by
    explicit calls to a step function; the clock's hour is an input. */
module Scheduler {
  import opened Wrappers
  import opened Items
  import opened Settings
  import opened Deletion

  type Hour = h: int | 0 <= h < 24

  /** Which reset rule a step uses. `AsWritten` is the rule in the source,
      which also clears the flag at hour 0 when the target hour is 0;
      `Corrected` clears it at hour 0 only for other targets. */
  datatype Variant = AsWritten | Corrected

  /** The poll fires when the hour has come and the flag is down. */
  predicate Fires(alreadyRan: bool, hour: Hour, target: Hour) {
    hour == target && !alreadyRan
  }

  /** The hours at which the flag is cleared. */
  predicate ResetsAt(v: Variant, hour: Hour, target: Hour) {
    || (hour < 23 && hour == target + 1)
    || (hour == 0 && (v == AsWritten || target != 0))
  }

  /** The flag after a poll, whether the deletions were started, and
      whether the poll schedules itself again. */
  datatype Tick = Tick(alreadyRan: bool, fired: bool, repoll: bool)

  /** One poll. `runRaised` says whether the deletions started by this poll
      raised; an exception leaves the callback before the flag is set and
      before the next poll is scheduled, so the polling stops. */
  function Step(v: Variant, alreadyRan: bool, enabled: bool, hour: Hour, target: Hour, runRaised: bool): (t: Tick)
    ensures !enabled ==> t == Tick(false, false, false)
    ensures enabled ==> t.fired == Fires(alreadyRan, hour, target)
    ensures t.fired && runRaised ==> !t.repoll && t.alreadyRan == alreadyRan
    ensures enabled && !(t.fired && runRaised) ==> t.repoll
    ensures t.repoll && ResetsAt(v, hour, target) ==> !t.alreadyRan
    ensures t.repoll && t.fired && !ResetsAt(v, hour, target) ==> t.alreadyRan
    ensures t.repoll && !t.fired ==> (t.alreadyRan <==> alreadyRan && !ResetsAt(v, hour, target))
  {
    if !enabled then Tick(false, false, false)
    else if Fires(alreadyRan, hour, target) && runRaised then Tick(alreadyRan, true, false)
    else
      var ran := alreadyRan || Fires(alreadyRan, hour, target);
      Tick(ran && !ResetsAt(v, hour, target), Fires(alreadyRan, hour, target), true)
  }

  // ---------------------------------------------------------------------
  // A day of polls

  /** The flag after a poll whose deletions finished. */
  function Next(v: Variant, alreadyRan: bool, hour: Hour, target: Hour): bool {
    Step(v, alreadyRan, true, hour, target, false).alreadyRan
  }

  /** The flag before the `n`-th poll of a sequence of polls at `hours`. */
  function FlagBefore(v: Variant, start: bool, hours: seq<Hour>, target: Hour, n: nat): bool
    requires n <= |hours|
    decreases n
  {
    if n == 0 then start else Next(v, FlagBefore(v, start, hours, target, n - 1), hours[n - 1], target)
  }

  predicate FiredAt(v: Variant, start: bool, hours: seq<Hour>, target: Hour, n: nat)
    requires n < |hours|
  {
    Fires(FlagBefore(v, start, hours, target, n), hours[n], target)
  }

  /** For every target except 0 the two rules agree. */
  lemma VariantsAgreeAwayFromZero(alreadyRan: bool, enabled: bool, hour: Hour, target: Hour, runRaised: bool)
    requires target != 0
    ensures Step(AsWritten, alreadyRan, enabled, hour, target, runRaised)
            == Step(Corrected, alreadyRan, enabled, hour, target, runRaised)
  {
  }

  /** The flag is never cleared at the target hour itself, under the
      corrected rule, or under the source's rule when the target is not 0. */
  lemma NoResetAtTarget(v: Variant, target: Hour)
    requires v == Corrected || target != 0
    ensures !ResetsAt(v, target, target)
  {
  }

  /** With no reset hour in between, a raised flag stays raised. */
  lemma {:induction false} FlagStaysUp(v: Variant, start: bool, hours: seq<Hour>, target: Hour, i: nat, m: nat)
    requires i < m <= |hours|
    requires FlagBefore(v, start, hours, target, i + 1)
    requires forall k :: i < k < m ==> !ResetsAt(v, hours[k], target)
    ensures FlagBefore(v, start, hours, target, m)
    decreases m
  {
    if m > i + 1 {
      FlagStaysUp(v, start, hours, target, i, m - 1);
    }
  }

  /** Between any two runs, the clock passed through an hour at which the
      flag is cleared. This is the once-a-day guarantee, and it holds for
      the corrected rule and for the source's rule with a target other
      than 0. */
  lemma RunsSeparatedByReset(v: Variant, start: bool, hours: seq<Hour>, target: Hour, i: nat, j: nat)
    requires v == Corrected || target != 0
    requires i < j < |hours|
    requires FiredAt(v, start, hours, target, i) && FiredAt(v, start, hours, target, j)
    ensures exists k :: i < k < j && ResetsAt(v, hours[k], target)
  {
    NoResetAtTarget(v, target);
    assert FlagBefore(v, start, hours, target, i + 1);
    if forall k :: i < k < j ==> !ResetsAt(v, hours[k], target) {
      FlagStaysUp(v, start, hours, target, i, j);
      assert false;
    }
  }

  /** With the flag down and the target hour not met, the flag stays down. */
  lemma {:induction false} FlagStaysDown(v: Variant, start: bool, hours: seq<Hour>, target: Hour, k: nat, m: nat)
    requires k < m <= |hours|
    requires !FlagBefore(v, start, hours, target, k + 1)
    requires forall n :: k < n < m ==> hours[n] != target
    ensures !FlagBefore(v, start, hours, target, m)
    decreases m
  {
    if m > k + 1 {
      FlagStaysDown(v, start, hours, target, k, m - 1);
    }
  }

  /** After a reset hour, the next poll at the target hour runs again: the
      scheduler does fire on the following day. */
  lemma FiresAfterReset(v: Variant, start: bool, hours: seq<Hour>, target: Hour, k: nat, j: nat)
    requires k < j < |hours|
    requires ResetsAt(v, hours[k], target)
    requires hours[j] == target
    requires forall n :: k < n < j ==> hours[n] != target
    ensures FiredAt(v, start, hours, target, j)
  {
    assert !FlagBefore(v, start, hours, target, k + 1);
    FlagStaysDown(v, start, hours, target, k, j);
  }

  /** Enabled with the flag down during the target hour, the scheduler runs
      on the first poll and on none of the following ones in that hour. */
  lemma {:induction false} OneRunPerTargetHour(v: Variant, hours: seq<Hour>, target: Hour, n: nat)
    requires v == Corrected || target != 0
    requires n < |hours|
    requires forall k :: 0 <= k < |hours| ==> hours[k] == target
    ensures FiredAt(v, false, hours, target, n) <==> n == 0
    decreases n
  {
    NoResetAtTarget(v, target);
    if n > 0 {
      assert FlagBefore(v, false, hours, target, 1);
      FlagStaysUp(v, false, hours, target, 0, n);
    }
  }

  /** The source's rule with target hour 0: the flag set by a run is
      cleared by the same poll, so every poll during hour 0 runs the
      deletions again. */
  lemma {:induction false} AsWrittenRefiresAllMidnightHour(hours: seq<Hour>, n: nat)
    requires n < |hours|
    requires forall k :: 0 <= k < |hours| ==> hours[k] == 0
    ensures FiredAt(AsWritten, false, hours, 0, n)
    ensures !FlagBefore(AsWritten, false, hours, 0, n + 1)
    decreases n
  {
    if n > 0 {
      AsWrittenRefiresAllMidnightHour(hours, n - 1);
    }
  }

  /** The smallest instance: two polls in hour 0 both run. */
  lemma AsWrittenRunsTwiceAtMidnight()
    ensures FiredAt(AsWritten, false, [0, 0], 0, 0) && FiredAt(AsWritten, false, [0, 0], 0, 1)
  {
    AsWrittenRefiresAllMidnightHour([0, 0], 1);
    AsWrittenRefiresAllMidnightHour([0, 0], 0);
  }

  /** For targets 22 and 23 the "next hour" rule never applies, and the flag
      is cleared at midnight instead. */
  lemma LateTargetsResetAtMidnight(v: Variant, target: Hour, hour: Hour)
    requires target >= 22
    ensures ResetsAt(v, hour, target) <==> hour == 0
  {
  }

  /** Target 14: enabled at 14:00 it runs once, does not run again at 14:xx,
      clears at 15:00 and runs again at the next 14:00. */
  lemma DailyScenario()
    ensures var hours: seq<Hour> := [14, 14, 15, 14];
      && FiredAt(Corrected, false, hours, 14, 0)
      && !FiredAt(Corrected, false, hours, 14, 1)
      && !FiredAt(Corrected, false, hours, 14, 2)
      && FiredAt(Corrected, false, hours, 14, 3)
  {
    var hours: seq<Hour> := [14, 14, 15, 14];
    assert FlagBefore(Corrected, false, hours, 14, 1);
    assert FlagBefore(Corrected, false, hours, 14, 2);
    assert !FlagBefore(Corrected, false, hours, 14, 3);
  }

  /** Switching the checkbox off and on again clears the flag, so the
      target hour runs the passes a second time: a firing poll, a click that
      disables the scheduler, and a click that enables it again, all within
      the target hour. */
  lemma ToggleRefiresSameHour(v: Variant, target: Hour)
    ensures var ran := Step(v, false, true, target, target, false);
      var off := Step(v, ran.alreadyRan, false, target, target, false);
      var on := Step(v, off.alreadyRan, true, target, target, false);
      && ran.fired && ran.repoll
      && !off.fired && !off.repoll && !off.alreadyRan
      && on.fired
  {
  }

  // ---------------------------------------------------------------------
  // A poll with its deletions

  /** A listing as the deletion pass sees it: the count from the first
      enumeration and the items of the second. */
  datatype Listing = Listing(total: nat, items: seq<Item>)

  datatype PollOutcome = PollOutcome(tick: Tick, runs: seq<RunResult>)

  /** Whether the last pass a poll started raised. */
  predicate LastRaised(runs: seq<RunResult>) {
    |runs| > 0 && runs[|runs| - 1].error.Some?
  }

  /** One poll including the deletions it starts: comments first, then
      submissions, stopping at the first run that raises. */
  function Poll(v: Variant, st: RedditState, alreadyRan: bool, enabled: bool, hour: Hour, target: Hour,
                comments: Listing, submissions: Listing): (o: PollOutcome)
    ensures o.tick.fired <==> enabled && Fires(alreadyRan, hour, target)
    ensures o.tick.fired <==> |o.runs| > 0
    ensures |o.runs| > 0 ==> o.runs[0] == DeleteItems(st, Comment, comments.total, comments.items)
    ensures |o.runs| == 2 ==> o.runs[1] == DeleteItems(st, Submission, submissions.total, submissions.items)
    ensures o.tick.repoll <==> enabled && forall i :: 0 <= i < |o.runs| ==> o.runs[i].error.None?
    ensures o.tick.repoll && o.tick.fired ==> |o.runs| == 2
    ensures |o.runs| <= 2
    ensures |o.runs| == 2 ==> o.runs[0].error.None?
    ensures |o.runs| == 1 ==> o.runs[0].error.Some?
    ensures o.tick == Step(v, alreadyRan, enabled, hour, target, LastRaised(o.runs))
    ensures o.tick.fired && !LastRaised(o.runs) ==> o.tick.alreadyRan == !ResetsAt(v, hour, target)
  {
    if enabled && Fires(alreadyRan, hour, target) then
      var first := DeleteItems(st, Comment, comments.total, comments.items);
      if first.error.Some? then
        PollOutcome(Step(v, alreadyRan, enabled, hour, target, true), [first])
      else
        var second := DeleteItems(st, Submission, submissions.total, submissions.items);
        PollOutcome(Step(v, alreadyRan, enabled, hour, target, second.error.Some?), [first, second])
    else
      PollOutcome(Step(v, alreadyRan, enabled, hour, target, false), [])
  }

  /** A scheduled poll in test mode never edits or deletes anything. */
  lemma ScheduledTestRunNeverMutates(v: Variant, st: RedditState, alreadyRan: bool, enabled: bool,
                                     hour: Hour, target: Hour, comments: Listing, submissions: Listing)
    requires IsTestRun(st)
    ensures var o := Poll(v, st, alreadyRan, enabled, hour, target, comments, submissions);
      forall i :: 0 <= i < |o.runs| ==> NoCalls(o.runs[i].events)
  {
    TestRunNeverMutates(st, Comment, comments.total, comments.items);
    TestRunNeverMutates(st, Submission, submissions.total, submissions.items);
  }

  /** Without a login, the poll that fires stops the scheduler. */
  lemma ScheduledRunWithoutLoginStops(v: Variant, alreadyRan: bool, hour: Hour, target: Hour,
                                      comments: Listing, submissions: Listing)
    requires Fires(alreadyRan, hour, target)
    ensures var o := Poll(v, NoSession, alreadyRan, true, hour, target, comments, submissions);
      o.runs == [RunResult([], Some(NotLoggedIn))] && !o.tick.repoll && !o.tick.alreadyRan
  {
  }
}

=== FILE: settings.dfy ===
/** The reddit configuration state (`reddit_state` in `services/reddit.py`):
    its values right after login and the setters the GUI calls. Wall-clock
    time is passed in as `now`, in seconds. */
module Settings {
  import opened Wrappers
  import opened Decimal

  /** The value stored by the "Set Unlimited" button. */
  const UnlimitedScore: int := 9999999999
  const SecondsPerHour: int := 3600
  const HoursPerDay: int := 24
  const HoursPerWeek: int := 168
  /** A "year" is 52 weeks. */
  const HoursPerYear: int := 8736

  /** `reddit_state`. `user` is the logged-in redditor (absent before
      login); `timeToSave` is the cutoff in seconds: items created after it
      are kept. `testRun` and `gildedSkip` hold the checkbox integers and
      are used for their truthiness. */
  datatype RedditState = RedditState(
    user: Option<string>,
    timeToSave: int,
    maxScore: int,
    testRun: int,
    gildedSkip: int)

  /** The state before anyone has logged in. */
  const NoSession := RedditState(None, 0, 0, 0, 0)

  predicate IsTestRun(st: RedditState) {
    st.testRun != 0
  }

  predicate SkipsGilded(st: RedditState) {
    st.gildedSkip != 0
  }

  /** A setter's outcome: the new state and the text its label now displays. */
  datatype Configured = Configured(state: RedditState, display: string)

  /** `int()` refused the text it was given. */
  datatype ConfigError = InvalidLiteral(text: string)

  /** The state a successful login writes: whatever was configured before is
      replaced, the cutoff is the login time, and the run is a real one. */
  function Login(username: string, now: int): (st: RedditState)
    ensures st.user == Some(username)
    ensures st.timeToSave == now
    ensures st.maxScore == 0
    ensures !IsTestRun(st) && !SkipsGilded(st)
  {
    RedditState(Some(username), now, 0, 0, 0)
  }

  // ---------------------------------------------------------------------
  // Time to save

  /** The four dropdown texts, as handed to the setter. */
  datatype TimeInputs = TimeInputs(hours: string, days: string, weeks: string, years: string)

  function TotalHours(h: int, d: int, w: int, y: int): int {
    h + d * HoursPerDay + w * HoursPerWeek + y * HoursPerYear
  }

  const NothingLabel: string := "Currently set to save: [nothing]"
  const LabelPrefix: string := "Currently set to save: ["
  const LabelSuffix: string := "] of items"

  /** `get_text`: a zero dropdown contributes nothing, any other text is
      followed directly by its unit. */
  function UnitText(t: string, unit: string): string {
    if t == "0" then "" else t + unit
  }

  predicate AllZero(t: TimeInputs) {
    t.hours == "0" && t.days == "0" && t.weeks == "0" && t.years == "0"
  }

  /** The four unit texts inside the brackets, largest unit first. */
  function TimeFields(t: TimeInputs): string {
    UnitText(t.years, "years") + " " + (UnitText(t.weeks, "weeks") + " "
      + (UnitText(t.days, "days") + " " + UnitText(t.hours, "hours")))
  }

  function TimeLabel(t: TimeInputs): string {
    if AllZero(t) then NothingLabel else LabelPrefix + TimeFields(t) + LabelSuffix
  }

  /** `set_reddit_time_to_save`: every dropdown text is converted with
      `int()` (hours first); the cutoff moves to `now` minus the total number
      of hours. A text `int()` refuses raises before anything is stored. */
  function SetTimeToSave(st: RedditState, t: TimeInputs, now: int): (r: Result<Configured, ConfigError>)
    ensures r.Ok? <==>
      ParseInt(t.hours).Some? && ParseInt(t.days).Some? && ParseInt(t.weeks).Some? && ParseInt(t.years).Some?
    ensures r.Err? ==> ParseInt(r.error.text).None?
    ensures ParseInt(t.hours).None? ==> r == Err(InvalidLiteral(t.hours))
    ensures ParseInt(t.hours).Some? && ParseInt(t.days).None? ==> r == Err(InvalidLiteral(t.days))
    ensures ParseInt(t.hours).Some? && ParseInt(t.days).Some? && ParseInt(t.weeks).None?
            ==> r == Err(InvalidLiteral(t.weeks))
    ensures ParseInt(t.hours).Some? && ParseInt(t.days).Some? && ParseInt(t.weeks).Some? && ParseInt(t.years).None?
            ==> r == Err(InvalidLiteral(t.years))
    ensures r.Ok? ==> r.value.state == st.(timeToSave := r.value.state.timeToSave)
    ensures r.Ok? ==> r.value.display == TimeLabel(t)
    ensures r.Ok? ==>
      now - r.value.state.timeToSave == SecondsPerHour * TotalHours(
        ParseInt(t.hours).value, ParseInt(t.days).value, ParseInt(t.weeks).value, ParseInt(t.years).value)
  {
    match (ParseInt(t.hours), ParseInt(t.days), ParseInt(t.weeks), ParseInt(t.years))
    case (None, _, _, _) => Err(InvalidLiteral(t.hours))
    case (Some(_), None, _, _) => Err(InvalidLiteral(t.days))
    case (Some(_), Some(_), None, _) => Err(InvalidLiteral(t.weeks))
    case (Some(_), Some(_), Some(_), None) => Err(InvalidLiteral(t.years))
    case (Some(h), Some(d), Some(w), Some(y)) =>
      Ok(Configured(st.(timeToSave := now - TotalHours(h, d, w, y) * SecondsPerHour), TimeLabel(t)))
  }

  /** The label reads `[nothing]` exactly when every dropdown is at zero. */
  lemma TimeLabelNothingIffAllZero(t: TimeInputs)
    ensures TimeLabel(t) == NothingLabel <==> AllZero(t)
  {
    if !AllZero(t) {
      var l := TimeLabel(t);
      assert l[|l| - 1] == 's';
      assert NothingLabel[|NothingLabel| - 1] == ']';
    }
  }

  /** Splits a string at every space, as `str.split(' ')` does. */
  function SplitSpaces(s: string): (r: seq<string>)
    ensures |r| >= 1
  {
    if |s| == 0 then [""]
    else
      var rest := SplitSpaces(s[1..]);
      if s[0] == ' ' then [""] + rest else [[s[0]] + rest[0]] + rest[1..]
  }

  lemma {:induction false} SplitNoSpace(a: string)
    requires ' ' !in a
    ensures SplitSpaces(a) == [a]
  {
    if |a| > 0 {
      SplitNoSpace(a[1..]);
      assert [a[0]] + a[1..] == a;
    }
  }

  lemma {:induction false} SplitAtSpace(a: string, b: string)
    requires ' ' !in a
    ensures SplitSpaces(a + " " + b) == [a] + SplitSpaces(b)
  {
    if |a| == 0 {
      assert (a + " " + b)[1..] == b;
    } else {
      assert (a + " " + b)[0] == a[0];
      assert (a + " " + b)[1..] == a[1..] + " " + b;
      SplitAtSpace(a[1..], b);
      assert [a[0]] + a[1..] == a;
    }
  }

  /** Recovers one dropdown text from its part of the label. */
  function ReadUnitText(field: string, unit: string): Option<string> {
    if field == "" then Some("0")
    else if |field| >= |unit| && field[|field| - |unit|..] == unit && field[..|field| - |unit|] != "0" then
      Some(field[..|field| - |unit|])
    else None
  }

  /** Reads the time-to-save label back into the dropdown texts it shows. */
  function ReadTimeLabel(text: string): Option<TimeInputs> {
    if text == NothingLabel then Some(TimeInputs("0", "0", "0", "0"))
    else if |text| >= |LabelPrefix| + |LabelSuffix|
         && text[..|LabelPrefix|] == LabelPrefix
         && text[|text| - |LabelSuffix|..] == LabelSuffix then
      ReadTimeFields(text[|LabelPrefix|..|text| - |LabelSuffix|])
    else None
  }

  /** Reads the four space-separated parts between the brackets of the label. */
  function ReadTimeFields(mid: string): Option<TimeInputs> {
    var fields := SplitSpaces(mid);
    if |fields| != 4 then None
    else
      match (ReadUnitText(fields[0], "years"), ReadUnitText(fields[1], "weeks"),
             ReadUnitText(fields[2], "days"), ReadUnitText(fields[3], "hours"))
      case (Some(y), Some(w), Some(d), Some(h)) => Some(TimeInputs(h, d, w, y))
      case _ => None
  }

  lemma ReadFramedLabel(mid: string)
    requires LabelPrefix + mid + LabelSuffix != NothingLabel
    ensures ReadTimeLabel(LabelPrefix + mid + LabelSuffix) == ReadTimeFields(mid)
  {
    var l := LabelPrefix + mid + LabelSuffix;
    assert l[..|LabelPrefix|] == LabelPrefix;
    assert l[|l| - |LabelSuffix|..] == LabelSuffix;
    assert l[|LabelPrefix|..|l| - |LabelSuffix|] == mid;
  }

  lemma SplitFour(y: string, w: string, d: string, h: string)
    requires ' ' !in y && ' ' !in w && ' ' !in d && ' ' !in h
    ensures SplitSpaces(y + " " + (w + " " + (d + " " + h))) == [y, w, d, h]
  {
    SplitNoSpace(h);
    SplitAtSpace(d, h);
    SplitAtSpace(w, d + " " + h);
    SplitAtSpace(y, w + " " + (d + " " + h));
  }

  /** A unit appears in the label exactly for a non-zero dropdown. */
  lemma UnitTextEmptyIffZero(t: string, unit: string)
    requires |unit| > 0
    ensures UnitText(t, unit) == "" <==> t == "0"
    ensures t != "0" ==> UnitText(t, unit)[|UnitText(t, unit)| - |unit|..] == unit
  {
    if t != "0" {
      assert |t + unit| > 0;
      assert (t + unit)[|t + unit| - |unit|..] == unit;
    }
  }

  lemma ReadUnitTextOfUnitText(t: string, unit: string)
    requires |unit| > 0
    ensures ReadUnitText(UnitText(t, unit), unit) == Some(t)
  {
    if t != "0" {
      var f := t + unit;
      assert f[|f| - |unit|..] == unit;
      assert f[..|f| - |unit|] == t;
    }
  }

  /** The label determines the dropdown texts it was built from, as long as
      none of them contains a space (the dropdowns only offer numerals). */
  lemma ReadTimeLabelOfTimeLabel(t: TimeInputs)
    requires ' ' !in t.hours && ' ' !in t.days && ' ' !in t.weeks && ' ' !in t.years
    ensures ReadTimeLabel(TimeLabel(t)) == Some(t)
  {
    TimeLabelNothingIffAllZero(t);
    if !AllZero(t) {
      ReadFramedLabel(TimeFields(t));
      ReadTimeFieldsOfTimeFields(t);
    }
  }

  lemma ReadTimeFieldsOfTimeFields(t: TimeInputs)
    requires ' ' !in t.hours && ' ' !in t.days && ' ' !in t.weeks && ' ' !in t.years
    ensures ReadTimeFields(TimeFields(t)) == Some(t)
  {
    var y, w, d, h := UnitText(t.years, "years"), UnitText(t.weeks, "weeks"),
                      UnitText(t.days, "days"), UnitText(t.hours, "hours");
    assert ' ' !in y && ' ' !in w && ' ' !in d && ' ' !in h by {
      assert ' ' !in "years" && ' ' !in "weeks" && ' ' !in "days" && ' ' !in "hours";
    }
    SplitFour(y, w, d, h);
    ReadUnitTextOfUnitText(t.years, "years");
    ReadUnitTextOfUnitText(t.weeks, "weeks");
    ReadUnitTextOfUnitText(t.days, "days");
    ReadUnitTextOfUnitText(t.hours, "hours");
  }

  // ---------------------------------------------------------------------
  // Max score

  const MaxScorePrefix: string := "Currently set to: "
  const MaxScoreSuffix: string := " upvotes"

  function MaxScoreLabel(shown: string): string {
    MaxScorePrefix + shown + MaxScoreSuffix
  }

  /** `set_reddix_max_score`. An empty entry shows 0 but stores nothing;
      "Unlimited" stores the sentinel; any other text goes through `int()`,
      which may refuse it. */
  function SetMaxScore(st: RedditState, input: string): (r: Result<Configured, ConfigError>)
    ensures input == "" ==> r == Ok(Configured(st, MaxScoreLabel("0")))
    ensures input == "Unlimited" ==>
      r == Ok(Configured(st.(maxScore := UnlimitedScore), MaxScoreLabel("Unlimited")))
    ensures r.Err? <==> input != "" && input != "Unlimited" && ParseInt(input).None?
    ensures r.Err? ==> r.error == InvalidLiteral(input)
    ensures r.Ok? ==> r.value.state == st.(maxScore := r.value.state.maxScore)
    ensures r.Ok? && input != "" && input != "Unlimited" ==> Some(r.value.state.maxScore) == ParseInt(input)
    ensures r.Ok? && input != "" && input != "Unlimited" ==>
      r.value.display == MaxScoreLabel(IntToString(r.value.state.maxScore))
  {
    if input == "" then Ok(Configured(st, MaxScoreLabel("0")))
    else if input == "Unlimited" then Ok(Configured(st.(maxScore := UnlimitedScore), MaxScoreLabel("Unlimited")))
    else match ParseInt(input)
      case None => Err(InvalidLiteral(input))
      case Some(n) => Ok(Configured(st.(maxScore := n), MaxScoreLabel(IntToString(n))))
  }

  /** Reads the number a max-score label shows. */
  function ReadMaxScoreLabel(text: string): Option<int> {
    if |text| >= |MaxScorePrefix| + |MaxScoreSuffix|
       && text[..|MaxScorePrefix|] == MaxScorePrefix
       && text[|text| - |MaxScoreSuffix|..] == MaxScoreSuffix then
      var shown := text[|MaxScorePrefix|..|text| - |MaxScoreSuffix|];
      if shown == "Unlimited" then Some(UnlimitedScore) else ParseInt(shown)
    else None
  }

  lemma ReadMaxScoreLabelOf(shown: string)
    ensures ReadMaxScoreLabel(MaxScoreLabel(shown)) ==
      if shown == "Unlimited" then Some(UnlimitedScore) else ParseInt(shown)
  {
    var l := MaxScoreLabel(shown);
    assert l[..|MaxScorePrefix|] == MaxScorePrefix;
    assert l[|l| - |MaxScoreSuffix|..] == MaxScoreSuffix;
    assert l[|MaxScorePrefix|..|l| - |MaxScoreSuffix|] == shown;
  }

  /** Whenever the entry is not empty, the label shows exactly the value
      that was stored. */
  lemma MaxScoreLabelShowsStored(st: RedditState, input: string)
    requires input != ""
    requires SetMaxScore(st, input).Ok?
    ensures ReadMaxScoreLabel(SetMaxScore(st, input).value.display)
            == Some(SetMaxScore(st, input).value.state.maxScore)
  {
    if input == "Unlimited" {
      ReadMaxScoreLabelOf("Unlimited");
    } else {
      var n := ParseInt(input).value;
      ReadMaxScoreLabelOf(IntToString(n));
      ParseIntToString(n);
      assert IntToString(n) != "Unlimited" by {
        assert ParseInt("Unlimited").None?;
      }
    }
  }

  /** An empty entry makes the label claim 0 while the stored threshold
      stays whatever it was. */
  lemma EmptyMaxScoreLabelDisagrees(st: RedditState)
    requires st.maxScore != 0
    ensures ReadMaxScoreLabel(SetMaxScore(st, "").value.display) == Some(0)
    ensures SetMaxScore(st, "").value.state.maxScore == st.maxScore
  {
    ReadMaxScoreLabelOf("0");
    assert ParseInt("0") == Some(0) by {
      ParseNatToString(0);
    }
  }

  // ---------------------------------------------------------------------
  // Checkboxes

  /** `set_reddit_gilded_skip`: only a truthy checkbox value is written, so
      the setter can switch skipping on but never off. */
  function SetGildedSkip(st: RedditState, flag: int): (r: RedditState)
    ensures SkipsGilded(r) <==> SkipsGilded(st) || flag != 0
    ensures flag != 0 ==> r.gildedSkip == flag
    ensures r == st.(gildedSkip := r.gildedSkip)
  {
    if flag != 0 then st.(gildedSkip := flag) else st
  }

  /** The checkbox toggled several times in a row. */
  function SetGildedSkipAll(st: RedditState, flags: seq<int>): RedditState
    decreases |flags|
  {
    if |flags| == 0 then st else SetGildedSkipAll(SetGildedSkip(st, flags[0]), flags[1..])
  }

  /** After any sequence of toggles, gilded items are skipped exactly when
      skipping was already on or some toggle was truthy. */
  lemma {:induction false} GildedSkipSticks(st: RedditState, flags: seq<int>)
    ensures SkipsGilded(SetGildedSkipAll(st, flags)) <==>
      SkipsGilded(st) || exists i :: 0 <= i < |flags| && flags[i] != 0
    ensures SetGildedSkipAll(st, flags) == st.(gildedSkip := SetGildedSkipAll(st, flags).gildedSkip)
    decreases |flags|
  {
    if |flags| > 0 {
      var next := SetGildedSkip(st, flags[0]);
      GildedSkipSticks(next, flags[1..]);
      if exists i :: 0 <= i < |flags| && flags[i] != 0 {
        var i :| 0 <= i < |flags| && flags[i] != 0;
        if i > 0 {
          assert flags[1..][i - 1] != 0;
        }
      }
      if exists i :: 0 <= i < |flags[1..]| && flags[1..][i] != 0 {
        var i :| 0 <= i < |flags[1..]| && flags[1..][i] != 0;
        assert flags[i + 1] != 0;
      }
    }
  }

  /** `set_reddit_test_run`: the checkbox value is stored as is. */
  function SetTestRun(st: RedditState, flag: int): (r: RedditState)
    ensures IsTestRun(r) <==> flag != 0
    ensures r == st.(testRun := flag)
  {
    st.(testRun := flag)
  }
}

=== FILE: snippet.dfy ===
/** The short display text of an item: a prefix of its body or title, an
    ellipsis when cut, with every character Tk cannot render removed. */
module Snippets {
  import opened Items

  const CommentLimit: nat := 15
  const SubmissionLimit: nat := 50
  const Ellipsis: string := "..."
  /** The largest code point Tk can display (the Basic Multilingual Plane). */
  const MaxRenderable: int := 65535

  function Limit(c: Category): nat {
    match c
    case Comment => CommentLimit
    case Submission => SubmissionLimit
  }

  predicate Renderable(c: char) {
    c as int <= MaxRenderable
  }

  predicate AllRenderable(s: string) {
    forall i :: 0 <= i < |s| ==> Renderable(s[i])
  }

  /** The reference meaning of the stripping step: keep exactly the
      renderable characters, in order. */
  function Strip(s: string): (r: string)
    ensures |r| <= |s|
    ensures AllRenderable(r)
    ensures AllRenderable(s) <==> r == s
  {
    if |s| == 0 then []
    else if Renderable(s[0]) then [s[0]] + Strip(s[1..])
    else Strip(s[1..])
  }

  lemma {:induction false} StripAppend(a: string, b: string)
    ensures Strip(a + b) == Strip(a) + Strip(b)
  {
    if |a| > 0 {
      assert (a + b)[1..] == a[1..] + b;
      StripAppend(a[1..], b);
    } else {
      assert a + b == b;
    }
  }

  /** Every renderable character of `s` survives, and nothing else does. */
  lemma {:induction false} StripKeepsExactlyRenderable(s: string, c: char)
    ensures c in Strip(s) <==> c in s && Renderable(c)
  {
    if |s| > 0 {
      StripKeepsExactlyRenderable(s[1..], c);
      assert c in s <==> c == s[0] || c in s[1..];
    }
  }

  /** `item_snippet` for a comment body or submission title, in the order
      the loop builds it: slice, append the ellipsis, then strip. */
  function Snippet(c: Category, text: string): (r: string)
    ensures |r| <= Limit(c) + |Ellipsis|
    ensures AllRenderable(r)
    ensures |text| > Limit(c) ==> r == Strip(text[..Limit(c)]) + Ellipsis
    ensures |text| <= Limit(c) ==> r == Strip(text)
  {
    var cut := if |text| <= Limit(c) then text else text[..Limit(c)];
    var marked := if |text| > Limit(c) then cut + Ellipsis else cut;
    StripAppend(cut, Ellipsis);
    assert Strip(Ellipsis) == Ellipsis;
    Strip(marked)
  }

  /** A text that fits and is fully renderable is shown verbatim. */
  lemma ShortRenderableShownVerbatim(c: Category, text: string)
    requires |text| <= Limit(c)
    requires AllRenderable(text)
    ensures Snippet(c, text) == text
  {
  }

  /** Python's `s.replace(ch, '')`: every occurrence of `ch` removed. */
  function Without(s: string, ch: char): (r: string)
    ensures |r| <= |s|
    ensures ch !in r
  {
    if |s| == 0 then []
    else if s[0] == ch then Without(s[1..], ch)
    else [s[0]] + Without(s[1..], ch)
  }

  /** `s` with every character of `gone` removed. */
  function Drop(s: string, gone: set<char>): (r: string)
    ensures |r| <= |s|
  {
    if |s| == 0 then []
    else if s[0] in gone then Drop(s[1..], gone)
    else [s[0]] + Drop(s[1..], gone)
  }

  lemma {:induction false} WithoutDrop(s: string, gone: set<char>, ch: char)
    ensures Without(Drop(s, gone), ch) == Drop(s, gone + {ch})
  {
    if |s| > 0 {
      WithoutDrop(s[1..], gone, ch);
    }
  }

  /** Dropping exactly the unrenderable characters that occur is stripping. */
  lemma {:induction false} DropUnrenderableIsStrip(s: string, gone: set<char>)
    requires forall ch :: ch in gone ==> !Renderable(ch)
    requires forall i :: 0 <= i < |s| && !Renderable(s[i]) ==> s[i] in gone
    ensures Drop(s, gone) == Strip(s)
  {
    if |s| > 0 {
      DropUnrenderableIsStrip(s[1..], gone);
    }
  }

  /** `gone` holds only unrenderable characters, and every unrenderable
      character among the first `i` of `s`. */
  predicate Covers(s: string, i: nat, gone: set<char>)
    requires i <= |s|
  {
    (forall ch :: ch in gone ==> !Renderable(ch))
    && forall j :: 0 <= j < i && !Renderable(s[j]) ==> s[j] in gone
  }

  lemma CoversStep(s: string, i: nat, gone: set<char>)
    requires i < |s| && Covers(s, i, gone)
    ensures Covers(s, i + 1, if Renderable(s[i]) then gone else gone + {s[i]})
  {
  }

  /** The stripping loop as the source writes it: iterate over the snippet
      as it was before the loop and, for each character above the BMP,
      replace all of its occurrences in the current snippet by nothing. */
  method StripByReplacing(snippet: string) returns (r: string)
    ensures r == Strip(snippet)
  {
    r := snippet;
    ghost var gone: set<char> := {};
    DropNothing(snippet);
    var i := 0;
    while i < |snippet|
      invariant 0 <= i <= |snippet|
      invariant Covers(snippet, i, gone)
      invariant r == Drop(snippet, gone)
    {
      var ch := snippet[i];
      CoversStep(snippet, i, gone);
      if ch as int > MaxRenderable {
        WithoutDrop(snippet, gone, ch);
        r := Without(r, ch);
        gone := gone + {ch};
      }
      i := i + 1;
    }
    DropUnrenderableIsStrip(snippet, gone);
  }

  lemma {:induction false} DropNothing(s: string)
    ensures Drop(s, {}) == s
  {
    if |s| > 0 {
      DropNothing(s[1..]);
    }
  }
}

=== FILE: wrappers.dfy ===
/** Failure-aware wrappers used throughout the model in place of Python's
    `None` and raised exceptions. */
module Wrappers {

  /** A value that may be absent. */
  datatype Option<+T> = None | Some(value: T)

  /** Either a successful value or the error that a Python call would raise. */
  datatype Result<+T, +E> = Ok(value: T) | Err(error: E)
}
